=== FILE: README.md ===
# VCM firmware core in Dafny

A Dafny model of the core of the 2019 vehicle-control-module firmware. It covers six parts:

- **CVNP identifier codec** (`cvnp_id.dfy`). This is the 29-bit packing of a `tCompliantId`.
- **CVNP handler registries** (`cvnp.dfy`). These are the five static tables of `cvnp.c` with the registration, query, lookup, start and TTL-sweep contracts that `cvnp.h` documents.
- **Fault table** (`fault.dfy`). It has 32 hooks, each with a set flag, data and two callbacks, plus the summary bitmask.
- **`util.h` byte/integer copy macros** (`util.dfy`). The model proves what each macro computes, and that the copy-out macro is not the inverse of the copy-in macro.
- **KBL96151 motor-controller driver** (`kbl.dfy`). It covers:
  - the 15-state round-robin query machine;
  - reply dispatch by side and by the last query sent to that side;
  - registration of the two receive handlers.
- **CAN hardware layer** (`can_hal.dfy`). It covers:
  - conversion between TivaWare message objects and CVNP frames;
  - the receive-interrupt cause filter;
  - the receive-object setup;
  - the lowest-free-mailbox scan with its overflow fault.
- **INA225 current-sense driver** (`ina225.dfy`). It covers gain autoranging with hysteresis, the gain-select pin encoding and the holdoff after each gain change.

Shared machine types are in `types.dfy`: `uint8_t`, `uint32_t`, bit-field ranges, function-pointer identities and `tCanFrame`.

State that the C code changes in place is modelled as classes:
- the tables become `array` fields;
- the driver statics become `var` fields;
- the loops become methods with invariants.

Each method is proved against a specification function, and the promised properties are lemmas about those functions.

Callbacks are function-pointer identities (`FnRef`, with NULL = 0). Each call the code makes into a callback comes back as a value, for example `Cvnp.Callback` or `Fault.HookCall`.

Modelling choices:

- **Codec layout.** The header says the struct order does not map onto id bits. `cvnp.h` declares `cvnp_idToStruct` and `cvnp_structToId`, but no C file defines them, so the packing is not fixed by the code. The model assumes this layout, LSB first:
  - ddef: bits 0-6;
  - rinst: bits 7-10;
  - rcls: bits 11-16;
  - sinst: bits 17-20;
  - scls: bits 21-26;
  - broad: bit 27;
  - nonc: bit 28.
- **CVNP engine bodies.** `cvnp.c` ends after the table declarations. `cvnp_start`, `cvnp_query`, `cvnp_procFrame` and the three `cvnp_register*` functions are declared in `cvnp.h` and defined nowhere. Registration, query, start and the sweeps are modelled from their header comments, plus these policies, which the model assumes:
  - a registration that finds its table full fails;
  - a query goes into the first free slot, or else evicts the entry with the smallest submission time;
  - a query with a wildcard (0) receiver class or instance goes to the multicast table;
  - this device's class and instance are stored into the 6- and 4-bit fields of the query's id, so only their low bits are kept.
- **Timeouts.**
  - `tNonCHandler` carries an enable bit `bHasTimeout` beside a 31-bit `ui32Timeout`.
  - `tQueryHandler` has only a 32-bit `ui32TimeToLive` and no enable bit. The 31-bit `ui32Timeout` and the `bDoesTimeOut` bit belong to `tQueryInfo`, the caller's request. Since `cvnp_query` has no definition, the model copies both into the stored handler (`Cvnp.QueryHandler`).
  - A non-compliant or query handler expires only when its enable bit is set.
  - `tBroadHandler` has no enable bit either, so the model assumes that a time-to-live of 0 never expires.
- **Sweep outcomes.** The header says query and broadcast handlers stay "until killed" or until the time-to-live expires, and that pfnOnDeath runs when a handler times out or is kicked. So the sweeps remove an expired query or broadcast handler and call its pfnOnDeath(false). For non-compliant handlers the header documents a timeout and a pfnOnDeath but no removal. The model assumes a watchdog: the handler gets pfnOnDeath(false), its last-run time is set to now, and it stays. `kbl_init` registers its two handlers only once, so removing them would silence the motor controllers for good.
- **Handler signatures.** The ddef table (`cvnp.c:20`) holds `bool (*)(tCanFrame*, uint32_t*, uint32_t*)`. `cvnp_registerDdefHandler` (`cvnp.h:133`) takes `void (*)(tCanFrame*)`. These signatures disagree, and the model stores only the pointer's identity.
- **`kbl_init` field names.** The code assigns `id`, `lastRun`, `timeout` and `valid`, but `tNonCHandler` has no fields by those names. The model registers what was evidently meant:
  - id RX_LEFT, then id RX_RIGHT;
  - last run 0;
  - KBL_CAN_TIMEOUT with the timeout enabled;
  - `_kbl_parseFrameGen` and `_kbl_onFrameTimeout` as callbacks.
- **KBL macros.** `kbl.c` uses the KBL_* ids, frame codes, tick period and timeout, but neither it nor `kbl.h` defines them. They are a `KblConfig`. Its validity predicate asks for seven distinct frame codes and a nonzero tick period, which the C build needs as `switch` case labels and a `%` divisor. It also assumes distinct left and right receive ids. That is a configuration assumption, not a build requirement: with equal ids the second registration in `kbl_init` would replace the first.
- **TivaWare constants.** The driverlib constants come from TivaWare's `driverlib` headers, which the repository does not include. The model assumes `MSG_OBJ_RX_INT_ENABLE` = 0x2 and `MSG_OBJ_EXTENDED_ID` = 0x4. It takes `GPIO_PIN_4`/`GPIO_PIN_5` (INA GS1/GS0) as bits 4 and 5.
- **Message-object binding.** `g_txMsg` and `g_rxMsg` are static and zeroed, so their data pointers are NULL until `cvnpHal_init` points them at `g_txBuf` and `g_rxBuf`. `CanHal.MsgObject` keeps the static buffer beside the object and a `bound` flag for the pointer. Conversions, sending and receiving require the object to be bound, because they read or write through that pointer.
- **Uninitialised values.** Where the C reads memory it never wrote, the model takes the value as a parameter:
  - the query byte sent from kbl_tick's reset state;
  - bytes 1-7 of the KBL query frame.
- **Receive-object split.** `cvnpHal_init`'s comment asks for half of the receive objects to take extended ids. As written, objects 1-17 take standard ids and 18-32 take extended ids. The model keeps the code's split.

## Model

| member | source | states |
|---|---|---|
| CvnpId.IdToStruct | src/cvnp/cvnp.h:115-118 | every decoded field lies within its bit-field width (broad, nonc ≤ 1; scls, rcls < 64; sinst, rinst < 16; ddef < 128) and ddef is the id's low 7 bits |
| CvnpId.StructToId | src/cvnp/cvnp.h:121-124 | the packed id is below 2^29, so bits 29-31 are never set, and each field sits at its shift in the layout |
| CvnpId.DecodeEncode | src/cvnp/cvnp.h:115-124 | decoding the packing of any in-range id struct gives the struct back |
| CvnpId.EncodeDecode | src/cvnp/cvnp.h:115-124 | packing the decoding of any 32-bit id gives the id's low 29 bits, so every id below 2^29 round-trips |
| Cvnp.SweepDeathsExact | src/cvnp/cvnp.h:50-62 | the TTL sweep calls pfnOnDeath(false) for every expired query entry, and every callback it makes is such a call |
| Cvnp.DisabledTimeoutNeverFires | src/cvnp/cvnp.h:88-89 | a query whose bDoesTimeOut bit is clear is never removed by the sweep and never told of its death, however much time passes |
| Cvnp.BroadMatchIgnoresOtherFields | src/cvnp/cvnp.h:72 | whether a broadcast handler hears a frame depends only on the frame's scls and ddef |
| Cvnp.Register | src/cvnp/cvnp.h:127-132 | an entry with the same key is replaced in place; otherwise the first free slot is taken; otherwise the table is unchanged; no other slot changes, and a table with unique keys keeps them unique |
| Cvnp.InstallQuery | src/cvnp/cvnp.h:50-62 | a query takes the first free slot with no callback, or when the table is full evicts the entry with the smallest submission time and calls its pfnOnDeath(true) |
| Cvnp.SweepQueryTable | src/cvnp/cvnp.h:50-62 | each slot is emptied exactly when its entry has timed out, and the callbacks are those of SweepDeaths |
| Cvnp.Registry.constructor | src/cvnp/cvnp.c:20-44 | statically stored tables start with every ddef pointer NULL and no entry occupied, with capacities 128, 4, 16, 16 and 16 |
| Cvnp.Registry.Start | src/cvnp/cvnp.h:107-111 | cvnp_start returns 0 exactly when HAL initialisation succeeded, and records this device's class and instance |
| Cvnp.Registry.RegisterDdefHandler | src/cvnp/cvnp.h:133 | registering code d writes slot d of the 128-slot table and no other slot |
| Cvnp.Registry.DdefHandlerFor | src/cvnp/cvnp.c:20 | the ddef of any received id indexes a valid slot of the ddef table |
| Cvnp.Registry.RegisterBroadHandler | src/cvnp/cvnp.h:127-131 | a handler with the same (scls, ddef) is replaced in place, which happens exactly when one exists; the registration fails exactly when the table is full and holds no such handler; the table never holds two handlers with one key |
| Cvnp.Registry.RegisterNonCHandler | src/cvnp/cvnp.h:127-132 | as for broadcast handlers, keyed by the raw frame id |
| Cvnp.Registry.Query | src/cvnp/cvnp.h:50-98 | the correlation goes to the multicast table when the target class or instance is the wildcard 0 and to the standard table otherwise; the other table is untouched. It takes the first free slot with no callback. When the table is full it replaces an entry with the smallest submission time and calls that entry's pfnOnDeath(true). An eviction happens exactly when the chosen table was full. The sender class and instance are kept modulo 64 and 16 |
| Cvnp.Registry.ExpireQueries | src/cvnp/cvnp.h:50-62 | both query tables are swept; expired entries are removed with pfnOnDeath(false) and all others are kept |
| Cvnp.BroadSweepDeathsExact | src/cvnp/cvnp.h:65-77 | the broadcast sweep calls pfnOnDeath(false) for every expired broadcast handler, every call it makes is such a call, and a handler with time-to-live 0 is never removed |
| Cvnp.Registry.ExpireBroadHandlers | src/cvnp/cvnp.h:65-77 | each broadcast slot is emptied exactly when its handler's time-to-live has passed, with the callbacks of the broadcast sweep; keys stay unique |
| Cvnp.NonCSweepKeepsHandlers | src/cvnp/cvnp.h:40-47 | the watchdog never removes a non-compliant handler or changes its id or callbacks; once fired at time now it does not fire again at now; a handler with bHasTimeout clear is untouched and gets no callback |
| Cvnp.NonCSweepDeathsExact | src/cvnp/cvnp.h:40-47 | the watchdog calls pfnOnDeath(false) for every handler whose enabled timeout has passed since its last run, and makes no other call |
| Cvnp.Registry.ExpireNonCHandlers | src/cvnp/cvnp.h:40-47 | every handler whose timeout has passed gets pfnOnDeath(false) and last-run time now; every other slot is unchanged; keys stay unique |
| Cvnp.Registry.FindBroadHandler | src/cvnp/cvnp.h:72 | the lookup finds the broadcast handler matching on scls and ddef, which is the only match, or reports that none matches |
| Cvnp.Registry.FindNonCHandler | src/cvnp/cvnp.h:40-47 | the lookup finds the one non-compliant handler for a frame id, or reports that none is registered |
| Fault.AssertIdempotent | src/fault.c:78-85 | asserting a fault twice is asserting it once: the second assert makes no call and keeps the first data |
| Fault.SummaryBit | src/fault.c:61-68 | bit k of the summary is set exactly when hook k is set, and no bit at or above the table size is set |
| Fault.SummaryZero | src/fault.c:61-68 | the summary is zero exactly when no fault is set |
| Fault.SummarySnoc | src/fault.c:63-65 | one loop step adds hook i's flag at weight 2^i to the summary of hooks 0..i-1 |
| Fault.SetBitAbove | src/fault.c:64 | for a value below 2^i, adding 2^i sets bit i and keeps every other bit, so the loop's OR and the model's addition agree |
| Fault.FaultTable.constructor | src/fault.c:12 | the static table starts with every hook clear, time 0 and both callbacks NULL |
| Fault.FaultTable.Init | src/fault.c:44-52 | every fault is cleared with time 0 and the default callbacks, the stored data is kept, and the summary is then 0 |
| Fault.FaultTable.GetFaultSummary | src/fault.c:61-68 | the 64-bit summary has bit k set exactly when fault k is set, and it is 0 exactly when no fault is set |
| Fault.AssertCallSeesOldData | src/fault.c:78-85 | while pfnOnAssert runs, the hook is already set and still holds its old data; the new data is stored only after the call |
| Fault.FaultTable.Assert | src/fault.c:78-85 | a clear fault becomes set with the new data; its pfnOnAssert(data) is called once, seeing the hook set with the old data; a set fault is left alone with no call; no other entry changes |
| Fault.FaultTable.Deassert | src/fault.c:93-97 | the flag is cleared and pfnOnDeassert is called whether or not the fault was set; no other entry changes |
| Fault.FaultTable.GetFaultData | src/fault.c:104-106 | returns the data stored by the last effective assert |
| Fault.FaultTable.GetFaultTime | src/fault.c:113-115 | the time is only ever written with 0, so it always reads 0 |
| Fault.FaultTable.RegHook | src/fault.c:122-126 | both callbacks are replaced and the flag, time and data are kept; no other entry changes |
| Util.ByteArrToInt | src/util.h:18-23 | DAT becomes ARR[0..n) read little-endian, below 256^n, whatever its earlier value and whatever ARR holds beyond n |
| Util.IntToByteArr | src/util.h:28-30 | ARR[i] becomes (DAT >> 8(n-i)) & 0xFF for i < n, with the full-width shift at i = 0 undefined when n ≥ 4; nothing beyond ARR[n-1] changes |
| Util.ShiftedBytes | src/util.h:30 | for i ≥ 1, ARR[i] is entry n-i of DAT's little-endian byte list. So ARR[1..n) holds bytes n-1 down to 1 and byte 0 of DAT is never emitted; for n ≤ 2, ARR[0] is 0 |
| Util.NotInverse | src/util.h:18-30 | a 16-bit DAT of 0x1234 is written as [0x00, 0x12], which reads back as 0x1200 |
| Util.LittleEndianRoundTrip | src/util.h:18-23 | writing a value's low n bytes least significant first and reading them back gives the value |
| Util.ToLittleEndianRoundTrip | src/util.h:18-23 | reading bytes in and writing them back out gives the same bytes |
| Util.IntToByteArrLittleEndian | src/util.h:28-30 | the corrected copy-out writes ARR[i] = byte i of DAT, exactly the bytes that ByteArrToInt reads back as DAT |
| Kbl.KblConfig.KindOf | src/device/kbl.c:129-161 | the switch picks the query type whose frame code is the byte, or no case when no code equals it |
| Kbl.KindOfCode | src/device/kbl.c:127-161 | the code sent for a query type selects that type's case |
| Kbl.RpmWord | src/device/kbl.c:77-79 | the rpm word is a 16-bit value with data[0] as its high byte and data[1] as its low byte |
| Kbl.MotorTemp | src/device/kbl.c:60-61 | a motor-temperature byte of 0xFF records 0; any other byte records its own value; the result is below 255 |
| Kbl.BrakeReplyUpdatesThrottle | src/device/kbl.c:154-156 | a COM_SW_BRK reply overwrites swThrottle with data[0] != 0 and never changes swBrake |
| Kbl.SwitchRepliesIntended | src/device/kbl.c:90-114 | with the intended routing, each switch reply sets its own switch to data[0] != 0 and changes nothing else in the record |
| Kbl.NextState | src/device/kbl.c:205-244 | the tick state stays in 0..14, rises by one from each query state and resets to 0 from 14 |
| Kbl.StateCycle | src/device/kbl.c:205-244 | after k query ticks the state is (s + k) mod 15 |
| Kbl.ScheduleCoversBothSides | src/device/kbl.c:203-244 | states 2q+1 and 2q send the code of query type Schedule[q] to the left and the right controller; for each side and query type exactly one of the 14 query states sends that type's code to that side |
| Kbl.CodeInjective | src/device/kbl.c:129-161 | distinct query types have distinct frame codes, so a code names one type |
| Kbl.Driver.constructor | src/device/kbl.c:16-19 | both saved query bytes, the tick counters and both motor records start at 0 |
| Kbl.Driver.ParseFrameGen | src/device/kbl.c:125-162 | a reply is treated as left exactly when its id is RX_LEFT; the query byte saved for that side picks the sub-parser; an unknown byte changes nothing; the other side's record and all query state are untouched |
| Kbl.Driver.Tick | src/device/kbl.c:196-261 | every call advances callCount with uint32 wrap-around; only calls where callCount is a multiple of the period send a query. Such a call: uses the side given by the state's parity and the type at state >> 1; advances the state by NextState; saves the sent byte for that side; and sends id TX_LEFT/TX_RIGHT with dlc 1, rtr 0, ide 0 and data[0] the query byte |
| Kbl.Driver.Init | src/device/kbl.c:177-191 | two ordinary registrations, RX_LEFT then RX_RIGHT. Each replaces a handler with the same id exactly when one is there, in that handler's slot; otherwise it takes a slot that was free. Each fails exactly when the table, as that registration finds it, is full and holds no handler with its id. The final table is the old one with just those one or two slots written, so every other handler is kept. Each successful registration's handler is in its slot at the end |
| CanHal.FrameRoundTrip | src/hal/can_hal.c:34-54 | a frame converted to a message object and back keeps its id, dlc, ide and data, and loses its rtr bit |
| CanHal.MsgRoundTrip | src/hal/can_hal.c:34-54 | a message object with a length below 16 and flags of 0 or EXTENDED_ID survives conversion to a frame and back |
| CanHal.MsgObject.constructor | src/hal/can_hal.c:27-30 | a static message object starts with every field zero, its data pointer NULL (unbound), and its static 8-byte buffer zeroed |
| CanHal.MsgObject.ToCvnp | src/hal/can_hal.c:34-42 | the frame gets the id, the length truncated to 4 bits, ide exactly when the extended-id flag is set, rtr 0 and all 8 data bytes |
| CanHal.MsgObject.FromCvnp | src/hal/can_hal.c:47-54 | the object gets the id, length = dlc, flags exactly EXTENDED_ID or 0, and all 8 data bytes; its id mask is untouched |
| CanHal.LowestClear | src/hal/can_hal.c:139-141 | the search result lies between its start and 32 |
| CanHal.FindFreeMailbox | src/hal/can_hal.c:139-141 | the scan returns the lowest i < 32 whose TXREQUEST bit is clear, or 32 when all are set |
| CanHal.AllMailboxesBusy | src/hal/can_hal.c:139-151 | with TXREQUEST = 0xFFFFFFFF every bit is set and the message goes to object 33 |
| CanHal.Controller.Init | src/hal/can_hal.c:105-126 | both message objects are bound to their buffers. The receive object accepts any id with 8 bytes. Objects 1-17 are configured standard and 18-32 extended. The receive object ends with both RX_INT_ENABLE and EXTENDED_ID in its flags. The result is true |
| CanHal.Controller.RxInterrupt | src/hal/can_hal.c:58-71 | a cause above 32 dispatches nothing and leaves g_rxMsg alone; otherwise exactly the converted received message is handed on |
| CanHal.Controller.SendFrame | src/hal/can_hal.c:133-152 | the frame goes into message object i+1, i the lowest free mailbox; when all 32 are busy FAULT_VCM_COMM is asserted with zero data and object 33 is still written |
| CanHal.Controller.SendFrameChecked | src/hal/can_hal.c:133-152 | the corrected send only writes one of objects 1-32, and that object's request bit is clear; when none is free it asserts FAULT_VCM_COMM and sends nothing |
| Ina225.GainStep | src/device/ina225.c:46-49 | from a valid gain, a reading ≥ 4085 steps the gain down one unless at the lowest; otherwise a reading ≤ 1365 steps it up one unless at the highest; when neither step applies (including a high reading at the lowest gain or a low one at the highest) the gain is unchanged; it stays in 0..3 |
| Ina225.SteadyReadingIsMonotone | src/device/ina225.c:46-49 | repeated samples of one reading move the gain in one direction only, so the autoranging never oscillates on a steady input |
| Ina225.GainPins | src/device/ina225.c:71-72 | the pin word only has bits under the GS0/GS1 mask |
| Ina225.PinsEncodeGain | src/device/ina225.c:69-75 | writing a gain's pin word under the GS0/GS1 mask puts exactly that gain on the select pins (GS1 = bit 0, GS0 = bit 1) and leaves the port's other pins alone |
| Ina225.Sensor.constructor | src/device/ina225.c:20-21 | the static gain and current start at 0 |
| Ina225.Sensor.SetGain | src/device/ina225.c:69-82 | the gain is stored and put on the select pins, the other pins keep their levels, sampling stops and the holdoff starts |
| Ina225.Sensor.OnHoldoffDone | src/device/ina225.c:58-62 | the holdoff ends and sampling resumes |
| Ina225.Sensor.OnSampleDone | src/device/ina225.c:35-50 | the current is computed with the gain the sample was taken at; the gain then takes one NextGain step through SetGain, and without a step nothing else changes |
| Ina225.Sensor.Init | src/device/ina225.c:87-110 | initialisation leaves the gain at INA_GAIN_200, set on the pins, with the other pins and the current unchanged, sampling stopped and the holdoff running |

## Left out

- Floating point is not modelled. This covers:
  - the KBL scaling, the controller-temperature average and the mechRPM/iMot products;
  - the INA225 scale table and current.

  The motor record and `Ina225.Sample` keep the integer values those floats are computed from.
- Driverlib calls are not modelled. The model replaces them with values:
  - GPIO, CAN, ADC and timer configuration calls are left out;
  - `CANIntStatus`, `CANStatusGet` and `ADCSequenceDataGet` become parameters;
  - `CANMessageSet` becomes a record of what each message object holds;
  - `GPIOPinWrite` becomes `Ina225.PinWrite` on the port's output levels.
- Concurrency is not modelled. The receive and timer interrupts that call these routines are modelled as sequential calls.
- `cvnp_procFrame` dispatch is not modelled. It is declared in `cvnp.h` and has no definition. `CanHal.Controller.RxInterrupt` returns the frame it would hand over.
- `Cvnp.Registry.Query`: only the correlation it installs is modelled. The request frame it transmits (`ui32Len`, data) is not, because `cvnp_query` has no definition that says how it is built.
- The refresh of a handler's last-run or submission time when a matching frame arrives belongs to `cvnp_procFrame` and is not modelled with it. The sweeps take those times as they stand.
- `Fault.FaultTable.Assert`: the callback runs between raising the flag and storing the data, and the model records what it sees (`seen`: set, old data). A callback that itself calls `fault_deassert` or `fault_assert` on the same fault is not modelled. The model assumes the callback returns without touching the table; in the C code such a callback would leave the fault clear with the new data stored.
- `_can_txIntHandler` only clears the interrupt, and `cvnpHal_now`, `cvnpHal_handleError` and `cvnpHal_resetSystem` are a clock read and empty stubs. None of these is modelled.
- `ina_getCurrent` is declared in `ina225.h`, but `ina225.c` does not define it.
- The empty device stubs (`bms.c`, `mppt.c`, `vcm.c`, `vcm_io.c`) and `cvnp_test.c`, which holds no tests, are not part of this model.
- `Kbl.Driver.Init`: it states the registrations the code evidently intends. As written, `kbl_init` assigns fields `tNonCHandler` does not have, so it does not compile.
- `Cvnp.Registry.Start`: the HAL's success is a parameter. Storing the class and instance is the only other effect modelled. `cvnp_start` has no definition, and its header comment promises only the HAL start-up and the return value.
- `Cvnp.Registry.RegisterDdefHandler`: it requires ddef < 128. The table has 128 slots, and a frame's ddef field is 7 bits wide, so every code that can arrive is below 128. `cvnp_registerDdefHandler` has no definition, so the model does not say what a larger argument would do.
- `Ina225.Sensor.SetGain`: it requires a gain of 0..3 (a `tInaGain`), because the gain later indexes the 4-entry scale table unchecked.

## Findings

| source | as written | input that shows it | evidently intended | confidence | as-written member | corrected member |
|---|---|---|---|---|---|---|
| src/util.h:30 | ARR[i] = (DAT >> 8(n-i)) & 0xFF, so byte 0 of DAT is dropped, the bytes are shifted one place, and the shift at i = 0 is the full width | uint16_t DAT = 0x1234 gives ARR = [0x00, 0x12], and UTIL_BYTEARR_TO_INT reads that back as 0x1200 | ARR[i] = (DAT >> 8i) & 0xFF, the inverse of UTIL_BYTEARR_TO_INT | high; not executed | Util.NotInverse | Util.IntToByteArrLittleEndian |
| src/device/kbl.c:154-156 | the COM_SW_BRK case calls _kbl_parseComSwAcc | a COM_SW_BRK reply with data[0] = 1 to a record with both switches clear sets swThrottle and leaves swBrake clear | call _kbl_parseComSwBrk, which sets swBrake | high; not executed | Kbl.BrakeReplyUpdatesThrottle | Kbl.SwitchRepliesIntended |
| src/hal/can_hal.c:143-151 | when all 32 TXREQUEST bits are set, the fault is raised and CANMessageSet is still called with object i+1 = 33 | TXREQUEST = 0xFFFFFFFF | raise the fault and send nothing, since objects are numbered 1-32 | medium; not executed | CanHal.AllMailboxesBusy | CanHal.Controller.SendFrameChecked |

=== FILE: can_hal.dfy ===
/** The TivaWare CAN back end of the CVNP hardware layer (can_hal.c):
    conversion between CVNP frames and TivaWare message objects, the
    receive interrupt, the receive-object setup and mailbox selection for
    transmission.

    Register accesses are replaced by values: the interrupt cause and the
    TXREQUEST status word are parameters, the message a CANMessageGet
    reads is a parameter, and each CANMessageSet is recorded in the
    controller's state. */
module CanHal {
  import opened Types
  import Fault

  /** TivaWare's MSG_OBJ_RX_INT_ENABLE and MSG_OBJ_EXTENDED_ID flag bits
      (driverlib/can.h, which the repository does not include). */
  const MsgObjRxIntEnable: bv32 := 0x2
  const MsgObjExtendedId: bv32 := 0x4

  /** CAN_MAX_BUF_SIZE: message objects per interface, numbered from 1. */
  const NumMsgObjects: nat := 32

  /** The fields of a tCANMsgObject the layer reads and writes; data is
      the 8-byte buffer pui8MsgData points at. */
  datatype TivaMsg = TivaMsg(msgId: u32, msgLen: u32, flags: bv32, data: seq<byte>)
  {
    predicate Valid() { |data| == 8 }
  }

  /** _can_tivaFrameToCVNP: the id and data are copied, the length lands
      in the 4-bit dlc field, ide is the extended-id flag, rtr is 0. */
  function TivaToCvnp(m: TivaMsg): (f: CanFrame)
    requires m.Valid()
    ensures f.Valid()
  {
    CanFrame(m.msgId, CanHeader(m.flags & MsgObjExtendedId != 0, false, (m.msgLen as int % 16) as u4), m.data)
  }

  /** _can_cvnpFrameToTiva: the id and data are copied, the length is
      dlc, and the flags are exactly the extended-id flag or nothing. */
  function CvnpToTiva(f: CanFrame): (m: TivaMsg)
    requires f.Valid()
    ensures m.Valid()
  {
    TivaMsg(f.id, f.head.dlc as u32, if f.head.ide then MsgObjExtendedId else 0, f.data)
  }

  /** A frame sent and received back is the same frame, except that the
      remote-request bit does not survive: the Tiva side has no field
      for it and the receive side always clears it. */
  lemma FrameRoundTrip(f: CanFrame)
    requires f.Valid()
    ensures TivaToCvnp(CvnpToTiva(f)) == f.(head := f.head.(rtr := false))
    ensures f.head.rtr ==> TivaToCvnp(CvnpToTiva(f)) != f
  {
  }

  /** A message object whose length fits the dlc field and whose flags
      are the extended-id flag or nothing survives the opposite trip. */
  lemma MsgRoundTrip(m: TivaMsg)
    requires m.Valid() && m.msgLen < 16 && (m.flags == 0 || m.flags == MsgObjExtendedId)
    ensures CvnpToTiva(TivaToCvnp(m)) == m
  {
  }

  /** A tCANMsgObject and the static 8-byte buffer (g_txBuf or g_rxBuf)
      that cvnpHal_init binds it to. Until then pui8MsgData is NULL:
      `bound` is false. */
  class MsgObject {
    var msgId: u32
    var idMask: u32
    var msgLen: u32
    var flags: bv32
    var bound: bool              // pui8MsgData points at `data`
    const data: array<byte>      // the static buffer

    ghost predicate Valid()
      reads this
    {
      data.Length == 8
    }

    function Contents(): (m: TivaMsg)
      requires Valid()
      reads this, data
      ensures m.Valid()
    {
      TivaMsg(msgId, msgLen, flags, data[..])
    }

    /** A statically allocated object: every field zero, so its data
        pointer is NULL; the static buffer beside it is zeroed too. */
    constructor ()
      ensures Valid() && fresh(data)
      ensures Contents() == TivaMsg(0, 0, 0, [0, 0, 0, 0, 0, 0, 0, 0]) && idMask == 0 && !bound
    {
      msgId, idMask, msgLen, flags, bound := 0, 0, 0, 0, false;
      data := new byte[8](_ => 0);
      new;
      assert data[..] == [0, 0, 0, 0, 0, 0, 0, 0];
    }

    /** _can_tivaFrameToCVNP applied to this object; the data is read
        through pui8MsgData, so the object must be bound. */
    method ToCvnp() returns (frame: CanFrame)
      requires Valid() && bound
      ensures frame == TivaToCvnp(Contents())
    {
      var bytes: seq<byte> := [];
      for i := 0 to 8
        invariant bytes == data[..i]
      {
        bytes := bytes + [data[i]];
      }
      frame := CanFrame(msgId, CanHeader(flags & MsgObjExtendedId != 0, false, (msgLen as int % 16) as u4), bytes);
    }

    /** _can_cvnpFrameToTiva into this object: the object then holds
        exactly the converted frame; the id mask and the binding are not
        touched. The data is written through pui8MsgData, so the object
        must be bound. */
    method FromCvnp(frame: CanFrame)
      requires Valid() && bound && frame.Valid()
      modifies this, data
      ensures Valid() && Contents() == CvnpToTiva(frame)
      ensures idMask == old(idMask) && bound
    {
      for i := 0 to 8
        invariant data[..i] == frame.data[..i]
        invariant idMask == old(idMask) && bound
      {
        data[i] := frame.data[i];
      }
      assert data[..] == frame.data;
      msgId := frame.id;
      msgLen := frame.head.dlc as u32;
      flags := if frame.head.ide then MsgObjExtendedId else 0;
    }
  }

  /** TXREQUEST bit k, (txStat >> k) & 1: object k+1 has a transmission
      pending. */
  predicate Pending(txStat: u32, k: nat) {
    Bit(txStat as nat, k)
  }

  /** The first index from i upward, below 32, whose TXREQUEST bit is
      clear; 32 when there is none. */
  function LowestClear(txStat: u32, i: nat): (r: nat)
    requires i <= NumMsgObjects
    ensures i <= r <= NumMsgObjects
    decreases NumMsgObjects - i
  {
    if i < NumMsgObjects && Pending(txStat, i) then LowestClear(txStat, i + 1) else i
  }

  /** The mailbox search of cvnpHal_sendFrame: the lowest message object
      whose transmit request is clear, or 32 when all 32 are busy. */
  method FindFreeMailbox(txStat: u32) returns (i: nat)
    ensures i == LowestClear(txStat, 0)
    ensures i <= NumMsgObjects
    ensures forall k :: 0 <= k < i ==> Pending(txStat, k)
    ensures i < NumMsgObjects ==> !Pending(txStat, i)
  {
    i := 0;
    while i < NumMsgObjects && Pending(txStat, i)
      invariant i <= NumMsgObjects
      invariant LowestClear(txStat, i) == LowestClear(txStat, 0)
      invariant forall k :: 0 <= k < i ==> Pending(txStat, k)
      decreases NumMsgObjects - i
    {
      i := i + 1;
    }
  }

  /** Every bit of 2^n - 1 below n is set. */
  lemma {:induction false} AllOnes(n: nat, k: nat)
    requires k < n
    ensures Bit(Pow2(n) - 1, k)
  {
    if k > 0 {
      assert (Pow2(n) - 1) / 2 == Pow2(n - 1) - 1;
      AllOnes(n - 1, k - 1);
    }
  }

  /** With every transmit request pending (TXREQUEST = 0xFFFFFFFF) the
      search ends at 32, and cvnpHal_sendFrame writes to message object
      33, which does not exist. */
  lemma AllMailboxesBusy()
    ensures forall k :: 0 <= k < NumMsgObjects ==> Pending(0xFFFF_FFFF, k)
    ensures LowestClear(0xFFFF_FFFF, 0) + 1 == 33
  {
    assert Pow2(32) == 0x1_0000_0000 by {
      assert Pow2(8) == 0x100;
      assert Pow2(16) == 0x1_0000 by { Pow2Add(8, 8); }
      Pow2Add(16, 16);
    }
    forall k | 0 <= k < NumMsgObjects ensures Pending(0xFFFF_FFFF, k) {
      AllOnes(32, k);
    }
    AllBusySearch(0xFFFF_FFFF, 0);
  }

  lemma {:induction false} AllBusySearch(txStat: u32, i: nat)
    requires i <= NumMsgObjects
    requires forall k :: 0 <= k < NumMsgObjects ==> Pending(txStat, k)
    ensures LowestClear(txStat, i) == NumMsgObjects
    decreases NumMsgObjects - i
  {
    if i < NumMsgObjects { AllBusySearch(txStat, i + 1); }
  }

  /** The CAN side of the hardware layer: g_txMsg, g_rxMsg, the message
      objects configured on each interface and the fault table that
      cvnpHal_sendFrame reports to. */
  class Controller {
    const txMsg: MsgObject                  // g_txMsg, with g_txBuf
    const rxMsg: MsgObject                  // g_rxMsg, with g_rxBuf
    const faults: Fault.FaultTable
    var rxObjectFlags: seq<bv32>            // flags receive objects 1.. were set up with
    var txObjects: map<nat, TivaMsg>        // last message set into each transmit object

    ghost predicate Valid()
      reads this, txMsg, rxMsg, faults, faults.faults
    {
      && txMsg.Valid() && rxMsg.Valid()
      && txMsg != rxMsg && txMsg.data != rxMsg.data
      && faults.Valid()
    }

    constructor (faultTable: Fault.FaultTable)
      requires faultTable.Valid()
      ensures Valid() && faults == faultTable
      ensures fresh(txMsg) && fresh(txMsg.data) && fresh(rxMsg) && fresh(rxMsg.data)
      ensures !txMsg.bound && !rxMsg.bound
      ensures rxObjectFlags == [] && txObjects == map[]
    {
      txMsg := new MsgObject();
      rxMsg := new MsgObject();
      faults := faultTable;
      rxObjectFlags := [];
      txObjects := map[];
    }

    /** cvnpHal_init, CAN part: g_txMsg and g_rxMsg are bound to their
        buffers; g_rxMsg accepts any id (mask 0) and 8 bytes with receive
        interrupts on, and is set into objects 1-32 in turn; after object
        17 the extended-id flag is added, so objects 1-17 take standard
        ids and 18-32 extended ones, and g_rxMsg keeps both flags.
        Returns true. */
    method Init() returns (ok: bool)
      requires Valid()
      modifies this, rxMsg, txMsg
      ensures Valid() && ok
      ensures txMsg.bound && rxMsg.bound
      ensures txObjects == old(txObjects)
      ensures rxMsg.idMask == 0 && rxMsg.msgLen == 8
      ensures rxMsg.flags == MsgObjRxIntEnable | MsgObjExtendedId
      ensures |rxObjectFlags| == NumMsgObjects
      ensures forall k :: 0 <= k < NumMsgObjects ==>
                rxObjectFlags[k] == if k < 17 then MsgObjRxIntEnable else MsgObjRxIntEnable | MsgObjExtendedId
      ensures forall k :: 0 <= k < NumMsgObjects ==>
                (rxObjectFlags[k] & MsgObjExtendedId != 0 <==> k + 1 >= 18)
    {
      txMsg.bound := true;
      rxMsg.bound := true;
      rxMsg.idMask := 0;
      rxMsg.msgLen := 8;
      rxMsg.flags := MsgObjRxIntEnable;
      rxObjectFlags := [];
      for i := 0 to NumMsgObjects
        invariant txMsg.bound && rxMsg.bound
        invariant rxMsg.idMask == 0 && rxMsg.msgLen == 8
        invariant txObjects == old(txObjects)
        invariant |rxObjectFlags| == i
        invariant rxMsg.flags == if i <= 16 then MsgObjRxIntEnable else MsgObjRxIntEnable | MsgObjExtendedId
        invariant forall k :: 0 <= k < i ==>
                    rxObjectFlags[k] == if k < 17 then MsgObjRxIntEnable else MsgObjRxIntEnable | MsgObjExtendedId
      {
        rxObjectFlags := rxObjectFlags + [rxMsg.flags];
        if i == 16 {
          rxMsg.flags := rxMsg.flags | MsgObjExtendedId;
        }
      }
      ok := true;
    }

    /** _can_rxIntHandler: a cause above 32 is a status interrupt and
        nothing happens; otherwise the message read from that object
        (`received`) lands in g_rxMsg and its conversion is handed to
        cvnp_procFrame, returned here. */
    method RxInterrupt(intStat: u32, received: TivaMsg) returns (dispatched: Option<CanFrame>)
      requires Valid() && rxMsg.bound && received.Valid()
      modifies rxMsg, rxMsg.data
      ensures Valid() && rxMsg.bound
      ensures intStat > 32 ==> dispatched == None && rxMsg.Contents() == old(rxMsg.Contents())
      ensures intStat <= 32 ==> rxMsg.Contents() == received && dispatched == Some(TivaToCvnp(received))
    {
      dispatched := None;
      if intStat <= 32 {
        for i := 0 to 8
          invariant rxMsg.data[..i] == received.data[..i]
          invariant rxMsg.bound
        {
          rxMsg.data[i] := received.data[i];
        }
        assert rxMsg.data[..] == received.data;
        rxMsg.msgId, rxMsg.msgLen, rxMsg.flags := received.msgId, received.msgLen, received.flags;
        var frame := rxMsg.ToCvnp();
        dispatched := Some(frame);
      }
    }

    /** cvnpHal_sendFrame as written: the frame is converted into
        g_txMsg and set into message object i+1, i the lowest clear
        TXREQUEST bit. When all 32 are pending, FAULT_VCM_COMM is asserted
        with zero data and the frame is still set, into object 33. */
    method SendFrame(frame: CanFrame, txStat: u32) returns (objectNum: nat, calls: seq<Fault.HookCall>)
      requires Valid() && txMsg.bound && frame.Valid()
      modifies this, txMsg, txMsg.data, faults.faults
      ensures Valid() && txMsg.bound
      ensures objectNum == LowestClear(txStat, 0) + 1
      ensures txMsg.Contents() == CvnpToTiva(frame)
      ensures txObjects == old(txObjects)[objectNum := CvnpToTiva(frame)]
      ensures rxObjectFlags == old(rxObjectFlags)
      ensures objectNum <= NumMsgObjects ==> calls == [] && faults.faults[..] == old(faults.faults[..])
      ensures objectNum > NumMsgObjects ==>
                && objectNum == 33
                && calls == Fault.AssertCalls(old(faults.faults[Fault.FaultVcmComm]), 0)
                && faults.faults[..] == old(faults.faults[..])[Fault.FaultVcmComm := Fault.Asserted(old(faults.faults[Fault.FaultVcmComm]), 0)]
    {
      txMsg.FromCvnp(frame);
      var i := FindFreeMailbox(txStat);
      calls := [];
      if i >= NumMsgObjects {
        calls := faults.Assert(Fault.FaultVcmComm, 0);
      }
      objectNum := i + 1;
      txObjects := txObjects[objectNum := txMsg.Contents()];
    }

    /** cvnpHal_sendFrame as evidently intended: with every mailbox busy
        the fault is raised and nothing is sent; otherwise the frame goes
        into the lowest free object, which is always one of 1-32. */
    method SendFrameChecked(frame: CanFrame, txStat: u32) returns (objectNum: Option<nat>, calls: seq<Fault.HookCall>)
      requires Valid() && txMsg.bound && frame.Valid()
      modifies this, txMsg, txMsg.data, faults.faults
      ensures Valid() && txMsg.bound
      ensures txMsg.Contents() == CvnpToTiva(frame)
      ensures rxObjectFlags == old(rxObjectFlags)
      ensures objectNum.Some? ==>
                && 1 <= objectNum.value <= NumMsgObjects
                && !Pending(txStat, objectNum.value - 1)
                && txObjects == old(txObjects)[objectNum.value := CvnpToTiva(frame)]
                && calls == [] && faults.faults[..] == old(faults.faults[..])
      ensures objectNum.None? ==>
                && (forall k :: 0 <= k < NumMsgObjects ==> Pending(txStat, k))
                && txObjects == old(txObjects)
                && calls == Fault.AssertCalls(old(faults.faults[Fault.FaultVcmComm]), 0)
                && faults.faults[..] == old(faults.faults[..])[Fault.FaultVcmComm := Fault.Asserted(old(faults.faults[Fault.FaultVcmComm]), 0)]
    {
      txMsg.FromCvnp(frame);
      var i := FindFreeMailbox(txStat);
      calls := [];
      if i >= NumMsgObjects {
        calls := faults.Assert(Fault.FaultVcmComm, 0);
        objectNum := None;
      } else {
        objectNum := Some(i + 1);
        txObjects := txObjects[i + 1 := txMsg.Contents()];
      }
    }
  }
}

=== FILE: cvnp.dfy ===
/** The CVNP handler registries (cvnp.c) and the registration, query,
    lookup and start contracts that cvnp.h documents for them.

    Handler callbacks are function pointers; the model keeps their
    identities (FnRef) and reports each callback the engine makes as a
    Callback value. An empty slot (a zeroed static record) is None. */
module Cvnp {
  import opened Types
  import opened CvnpId

  /** Table sizes: CVNP_NUM_DDEF (cvnp.h) and cvnp_config.h. */
  const NumDdef: nat := 128
  const MulticastBufSize: nat := 4
  const StdQueryBufSize: nat := 16
  const BroadcastBufSize: nat := 16
  const NonCompliantBufSize: nat := 16

  /** tNonCHandler: a listener for a raw (non-CVNP) frame id, with a
      31-bit timeout and its enable bit. */
  datatype NonCHandler = NonCHandler(
    id: u32, lastRun: u32, timeout: u31, hasTimeout: bool, procFrame: FnRef, onDeath: FnRef)

  /** tQueryHandler: the correlation kept for a query that was sent. The
      header gives the record no enable bit; the model carries the
      bDoesTimeOut bit of the tQueryInfo the query was made from. */
  datatype QueryHandler = QueryHandler(
    id: CompliantId, timeToLive: u31, doesTimeOut: bool, submitted: u32, procFrame: FnRef, onDeath: FnRef)

  /** tBroadHandler: a broadcast listener; only scls and ddef of its id matter. */
  datatype BroadHandler = BroadHandler(
    id: CompliantId, timeToLive: u32, submitted: u32, procFrame: FnRef, onDeath: FnRef)

  /** tQueryInfo: what a caller hands to cvnp_query. */
  datatype QueryInfo = QueryInfo(
    rcls: nat, rinst: nat, ddef: nat, timeout: u31, doesTimeOut: bool, procFrame: FnRef, onDeath: FnRef)
  {
    predicate InRange() { rcls < 64 && rinst < 16 && ddef < 128 }
  }

  /** A call the engine makes into a handler: pfnOnDeath(bWasKilled). */
  datatype Callback = OnDeath(fn: FnRef, wasKilled: bool)

  /** Where a registration went. */
  datatype Registration = Replaced(slot: nat) | Inserted(slot: nat) | TableFull

  /** The effective key of a broadcast handler: sender class and ddef. */
  function BroadKey(h: BroadHandler): (nat, nat) { (h.id.scls, h.id.ddef) }

  /** The effective key of a non-compliant handler: the raw frame id. */
  function NonCKey(h: NonCHandler): u32 { h.id }

  /** A broadcast handler hears a frame when its sender class and ddef agree. */
  predicate BroadMatches(h: BroadHandler, id: CompliantId) {
    h.id.scls == id.scls && h.id.ddef == id.ddef
  }

  /** Slot i is occupied by an entry with key k. */
  predicate HasKeyAt<T, K(==)>(s: seq<Option<T>>, key: T -> K, k: K, i: int) {
    0 <= i < |s| && s[i].Some? && key(s[i].value) == k
  }

  /** No two occupied slots share a key. */
  predicate KeysUnique<T, K(==)>(s: seq<Option<T>>, key: T -> K) {
    forall i, j :: 0 <= i < j < |s| && s[i].Some? && s[j].Some? ==> key(s[i].value) != key(s[j].value)
  }

  /** Number of occupied slots. */
  function Occupied<T>(s: seq<Option<T>>): (n: nat)
    ensures n <= |s|
  {
    if s == [] then 0 else Occupied(s[..|s| - 1]) + (if s[|s| - 1].Some? then 1 else 0)
  }

  /** A time-bounded entry expires when its timeout is enabled and more
      than `limit` ms have passed since `since` (uint32 subtraction). */
  predicate TimedOut(now: u32, since: u32, limit: u31, enabled: bool) {
    enabled && Elapsed(now, since) as int > limit
  }

  predicate QueryExpired(h: QueryHandler, now: u32) {
    TimedOut(now, h.submitted, h.timeToLive, h.doesTimeOut)
  }

  /** A slot after the TTL sweep: an expired query is removed. */
  function SweptSlot(o: Option<QueryHandler>, now: u32): Option<QueryHandler> {
    if o.Some? && QueryExpired(o.value, now) then None else o
  }

  /** The death callbacks the TTL sweep makes over a table, in slot order. */
  function SweepDeaths(s: seq<Option<QueryHandler>>, now: u32): seq<Callback> {
    if s == [] then []
    else
      var last := s[|s| - 1];
      SweepDeaths(s[..|s| - 1], now)
        + (if last.Some? && QueryExpired(last.value, now) then [OnDeath(last.value.onDeath, false)] else [])
  }

  /** The sweep reports exactly the expired entries: each of its callbacks
      is an unkilled death of an expired entry, and every expired entry
      gets one. */
  lemma {:induction false} SweepDeathsExact(s: seq<Option<QueryHandler>>, now: u32)
    ensures forall c :: c in SweepDeaths(s, now) ==>
              !c.wasKilled && exists i :: 0 <= i < |s| && s[i].Some? && QueryExpired(s[i].value, now) && c.fn == s[i].value.onDeath
    ensures forall i :: 0 <= i < |s| && s[i].Some? && QueryExpired(s[i].value, now) ==>
              OnDeath(s[i].value.onDeath, false) in SweepDeaths(s, now)
  {
    if s != [] {
      var init := s[..|s| - 1];
      SweepDeathsExact(init, now);
      forall i | 0 <= i < |init| ensures init[i] == s[i] { }
    }
  }

  /** A query whose timeout is disabled is never removed by the sweep,
      however much time passes. */
  lemma DisabledTimeoutNeverFires(h: QueryHandler, now: u32)
    requires !h.doesTimeOut
    ensures SweptSlot(Some(h), now) == Some(h)
    ensures SweepDeaths([Some(h)], now) == []
  {
    assert [Some(h)][..0] == [];
  }

  /** A broadcast handler expires when more than its time-to-live has
      passed since it was submitted. tBroadHandler has no enable bit; a
      time-to-live of 0 is taken to mean that it never expires. */
  predicate BroadExpired(h: BroadHandler, now: u32) {
    h.timeToLive != 0 && Elapsed(now, h.submitted) > h.timeToLive
  }

  /** A broadcast slot after the sweep: an expired handler is removed. */
  function BroadSweptSlot(o: Option<BroadHandler>, now: u32): Option<BroadHandler> {
    if o.Some? && BroadExpired(o.value, now) then None else o
  }

  /** The death callbacks of the broadcast sweep, in slot order. */
  function BroadSweepDeaths(s: seq<Option<BroadHandler>>, now: u32): seq<Callback> {
    if s == [] then []
    else
      var last := s[|s| - 1];
      BroadSweepDeaths(s[..|s| - 1], now)
        + (if last.Some? && BroadExpired(last.value, now) then [OnDeath(last.value.onDeath, false)] else [])
  }

  /** The broadcast sweep reports exactly the expired handlers, each with
      an unkilled death, and a handler with time-to-live 0 never expires. */
  lemma {:induction false} BroadSweepDeathsExact(s: seq<Option<BroadHandler>>, now: u32)
    ensures forall c :: c in BroadSweepDeaths(s, now) ==>
              !c.wasKilled && exists i :: 0 <= i < |s| && s[i].Some? && BroadExpired(s[i].value, now) && c.fn == s[i].value.onDeath
    ensures forall i :: 0 <= i < |s| && s[i].Some? && BroadExpired(s[i].value, now) ==>
              OnDeath(s[i].value.onDeath, false) in BroadSweepDeaths(s, now)
    ensures forall i :: 0 <= i < |s| && s[i].Some? && s[i].value.timeToLive == 0 ==>
              BroadSweptSlot(s[i], now) == s[i]
  {
    if s != [] {
      var init := s[..|s| - 1];
      BroadSweepDeathsExact(init, now);
      forall i | 0 <= i < |init| ensures init[i] == s[i] { }
    }
  }

  /** A non-compliant handler's watchdog fires when its timeout is
      enabled and more than the timeout has passed since it last ran. */
  predicate NonCExpired(h: NonCHandler, now: u32) {
    TimedOut(now, h.lastRun, h.timeout, h.hasTimeout)
  }

  /** A non-compliant slot after the sweep: a handler whose watchdog
      fired stays, with its last-run time reset to now. */
  function NonCSweptSlot(o: Option<NonCHandler>, now: u32): Option<NonCHandler> {
    if o.Some? && NonCExpired(o.value, now) then Some(o.value.(lastRun := now)) else o
  }

  /** The death callbacks of the non-compliant sweep, in slot order. */
  function NonCSweepDeaths(s: seq<Option<NonCHandler>>, now: u32): seq<Callback> {
    if s == [] then []
    else
      var last := s[|s| - 1];
      NonCSweepDeaths(s[..|s| - 1], now)
        + (if last.Some? && NonCExpired(last.value, now) then [OnDeath(last.value.onDeath, false)] else [])
  }

  /** The watchdog never removes a handler nor changes its id or
      callbacks; after it fires it is quiet at the same instant, so a
      second sweep at the same time makes no call; and a handler whose
      timeout is disabled is never touched. */
  lemma NonCSweepKeepsHandlers(o: Option<NonCHandler>, now: u32)
    ensures NonCSweptSlot(o, now).Some? == o.Some?
    ensures o.Some? ==> NonCSweptSlot(o, now).value == o.value.(lastRun := NonCSweptSlot(o, now).value.lastRun)
    ensures NonCSweptSlot(o, now).Some? ==> !NonCExpired(NonCSweptSlot(o, now).value, now) || o == NonCSweptSlot(o, now)
    ensures NonCSweptSlot(NonCSweptSlot(o, now), now) == NonCSweptSlot(o, now)
    ensures o.Some? && !o.value.hasTimeout ==> NonCSweptSlot(o, now) == o && NonCSweepDeaths([o], now) == []
  {
    assert [o][..0] == [];
  }

  /** The non-compliant sweep reports exactly the handlers whose watchdog
      fired, each with an unkilled death. */
  lemma {:induction false} NonCSweepDeathsExact(s: seq<Option<NonCHandler>>, now: u32)
    ensures forall c :: c in NonCSweepDeaths(s, now) ==>
              !c.wasKilled && exists i :: 0 <= i < |s| && s[i].Some? && NonCExpired(s[i].value, now) && c.fn == s[i].value.onDeath
    ensures forall i :: 0 <= i < |s| && s[i].Some? && NonCExpired(s[i].value, now) ==>
              OnDeath(s[i].value.onDeath, false) in NonCSweepDeaths(s, now)
  {
    if s != [] {
      var init := s[..|s| - 1];
      NonCSweepDeathsExact(init, now);
      forall i | 0 <= i < |init| ensures init[i] == s[i] { }
    }
  }

  /** Inserts h under its key: replaces the first entry with the same key
      in place; otherwise takes the first free slot; otherwise fails and
      leaves the table as it was. */
  method Register<T, K(==)>(table: array<Option<T>>, h: T, key: T -> K) returns (r: Registration)
    modifies table
    ensures r.Replaced? ==>
              && HasKeyAt(old(table[..]), key, key(h), r.slot)
              && (forall i :: 0 <= i < r.slot ==> !HasKeyAt(old(table[..]), key, key(h), i))
              && table[..] == old(table[..])[r.slot := Some(h)]
    ensures r.Inserted? ==>
              && r.slot < table.Length && old(table[r.slot]).None?
              && (forall i :: 0 <= i < table.Length ==> !HasKeyAt(old(table[..]), key, key(h), i))
              && (forall i :: 0 <= i < r.slot ==> old(table[i]).Some?)
              && table[..] == old(table[..])[r.slot := Some(h)]
    ensures r.TableFull? ==>
              && (forall i :: 0 <= i < table.Length ==> old(table[i]).Some? && !HasKeyAt(old(table[..]), key, key(h), i))
              && table[..] == old(table[..])
    ensures KeysUnique(old(table[..]), key) ==> KeysUnique(table[..], key)
  {
    var i := 0;
    while i < table.Length
      invariant 0 <= i <= table.Length
      invariant table[..] == old(table[..])
      invariant forall j :: 0 <= j < i ==> !HasKeyAt(table[..], key, key(h), j)
    {
      if table[i].Some? && key(table[i].value) == key(h) {
        table[i] := Some(h);
        return Replaced(i);
      }
      i := i + 1;
    }
    i := 0;
    while i < table.Length
      invariant 0 <= i <= table.Length
      invariant table[..] == old(table[..])
      invariant forall j :: 0 <= j < i ==> table[j].Some?
      invariant forall j :: 0 <= j < table.Length ==> !HasKeyAt(table[..], key, key(h), j)
    {
      if table[i].None? {
        ghost var s0 := table[..];
        table[i] := Some(h);
        assert table[..] == s0[i := Some(h)];
        forall a, b | 0 <= a < b < table.Length && table[a].Some? && table[b].Some?
          ensures KeysUnique(s0, key) ==> key(table[a].value) != key(table[b].value)
        {
          if a != i && b != i { assert table[a] == s0[a] && table[b] == s0[b]; }
          else if a == i { assert !HasKeyAt(s0, key, key(h), b); }
          else { assert !HasKeyAt(s0, key, key(h), a); }
        }
        return Inserted(i);
      }
      i := i + 1;
    }
    return TableFull;
  }

  /** Installs a query correlation: into the first free slot if there is
      one, otherwise over the entry with the smallest submission time,
      whose pfnOnDeath is then called with bWasKilled = true. */
  method InstallQuery(table: array<Option<QueryHandler>>, h: QueryHandler) returns (slot: nat, killed: seq<Callback>)
    requires table.Length > 0
    modifies table
    ensures slot < table.Length && table[..] == old(table[..])[slot := Some(h)]
    ensures (exists i :: 0 <= i < table.Length && old(table[i]).None?) ==>
              && old(table[slot]).None? && killed == []
              && (forall i :: 0 <= i < slot ==> old(table[i]).Some?)
    ensures (forall i :: 0 <= i < table.Length ==> old(table[i]).Some?) ==>
              && killed == [OnDeath(old(table[slot]).value.onDeath, true)]
              && (forall i :: 0 <= i < table.Length ==>
                    old(table[slot]).value.submitted <= old(table[i]).value.submitted)
  {
    var i := 0;
    while i < table.Length
      invariant 0 <= i <= table.Length
      invariant forall j :: 0 <= j < i ==> table[j].Some?
    {
      if table[i].None? {
        table[i] := Some(h);
        return i, [];
      }
      i := i + 1;
    }
    var oldest := 0;
    i := 1;
    while i < table.Length
      invariant 1 <= i <= table.Length && oldest < i
      invariant forall j :: 0 <= j < i ==> table[oldest].value.submitted <= table[j].value.submitted
    {
      if table[i].value.submitted < table[oldest].value.submitted {
        oldest := i;
      }
      i := i + 1;
    }
    killed := [OnDeath(table[oldest].value.onDeath, true)];
    table[oldest] := Some(h);
    slot := oldest;
  }

  /** The TTL sweep over one query table. */
  method SweepQueryTable(table: array<Option<QueryHandler>>, now: u32) returns (deaths: seq<Callback>)
    modifies table
    ensures forall i :: 0 <= i < table.Length ==> table[i] == SweptSlot(old(table[i]), now)
    ensures deaths == SweepDeaths(old(table[..]), now)
  {
    ghost var before := table[..];
    deaths := [];
    var i := 0;
    while i < table.Length
      invariant 0 <= i <= table.Length
      invariant forall j :: 0 <= j < i ==> table[j] == SweptSlot(before[j], now)
      invariant forall j :: i <= j < table.Length ==> table[j] == before[j]
      invariant deaths == SweepDeaths(before[..i], now)
    {
      assert before[..i + 1][..i] == before[..i];
      var e := table[i];
      if e.Some? && TimedOut(now, e.value.submitted, e.value.timeToLive, e.value.doesTimeOut) {
        deaths := deaths + [OnDeath(e.value.onDeath, false)];
        table[i] := None;
      }
      i := i + 1;
    }
    assert before[..table.Length] == before;
  }

  /** The engine state: this device's address and the five static tables. */
  class Registry {
    var myClass: nat
    var myInst: nat
    const ddefTable: array<FnRef>                  // g_pfnDdefTable; NULL = no handler
    const multicastTable: array<Option<QueryHandler>>  // g_pMulticastTable
    const stdQueryTable: array<Option<QueryHandler>>   // g_pStdQueryTable
    const broadcastTable: array<Option<BroadHandler>>  // g_pBroadcastTable
    const nonCTable: array<Option<NonCHandler>>        // g_pNonCTable

    ghost predicate Valid()
      reads this, ddefTable, multicastTable, stdQueryTable, broadcastTable, nonCTable
    {
      && ddefTable.Length == NumDdef
      && multicastTable.Length == MulticastBufSize
      && stdQueryTable.Length == StdQueryBufSize
      && broadcastTable.Length == BroadcastBufSize
      && nonCTable.Length == NonCompliantBufSize
      && multicastTable != stdQueryTable
      && KeysUnique(broadcastTable[..], BroadKey)
      && KeysUnique(nonCTable[..], NonCKey)
    }

    /** The tables have static storage: before anything is registered
        every slot is empty and every pointer NULL. */
    constructor ()
      ensures Valid()
      ensures forall d :: 0 <= d < NumDdef ==> ddefTable[d] == NULL
      ensures Occupied(multicastTable[..]) == 0 && Occupied(stdQueryTable[..]) == 0
      ensures Occupied(broadcastTable[..]) == 0 && Occupied(nonCTable[..]) == 0
      ensures myClass == 0 && myInst == 0
    {
      myClass, myInst := 0, 0;
      ddefTable := new FnRef[NumDdef](_ => NULL);
      multicastTable := new Option<QueryHandler>[MulticastBufSize](_ => None);
      stdQueryTable := new Option<QueryHandler>[StdQueryBufSize](_ => None);
      broadcastTable := new Option<BroadHandler>[BroadcastBufSize](_ => None);
      nonCTable := new Option<NonCHandler>[NonCompliantBufSize](_ => None);
      new;
      EmptyTableUnoccupied(multicastTable[..]);
      EmptyTableUnoccupied(stdQueryTable[..]);
      EmptyTableUnoccupied(broadcastTable[..]);
      EmptyTableUnoccupied(nonCTable[..]);
    }

    /** cvnp_start: records this device's class and instance and brings
        up the HAL; returns 0 exactly when the HAL came up. */
    method Start(cls: nat, inst: nat, halInitOk: bool) returns (status: u32)
      requires Valid()
      modifies this
      ensures Valid() && myClass == cls && myInst == inst
      ensures (status == 0) == halInitOk
    {
      myClass, myInst := cls, inst;
      status := if halInitOk then 0 else 1;
    }

    /** cvnp_registerDdefHandler: the handler for code d goes to slot d;
        no other slot changes. */
    method RegisterDdefHandler(ddef: u32, handler: FnRef)
      requires Valid() && ddef as int < NumDdef
      modifies ddefTable
      ensures Valid()
      ensures ddefTable[..] == old(ddefTable[..])[ddef := handler]
    {
      ddefTable[ddef] := handler;
    }

    /** The request handler slot for a received id: the ddef field of any
        decoded id indexes a valid slot. */
    method DdefHandlerFor(frameId: u32) returns (handler: FnRef, code: nat)
      requires Valid()
      ensures code == IdToStruct(frameId).ddef && code < ddefTable.Length
      ensures handler == ddefTable[code]
    {
      code := IdToStruct(frameId).ddef;
      handler := ddefTable[code];
    }

    /** cvnp_registerBroadHandler: a handler with the same (scls, ddef)
        is replaced in place; otherwise the handler takes a free slot; a
        full table is left alone. The table never holds two handlers with
        one key. */
    method RegisterBroadHandler(h: BroadHandler) returns (r: Registration)
      requires Valid()
      modifies broadcastTable
      ensures Valid()
      ensures !r.TableFull? ==> r.slot < broadcastTable.Length && broadcastTable[..] == old(broadcastTable[..])[r.slot := Some(h)]
      ensures r.Replaced? <==> exists i :: HasKeyAt(old(broadcastTable[..]), BroadKey, BroadKey(h), i)
      ensures r.Replaced? ==> HasKeyAt(old(broadcastTable[..]), BroadKey, BroadKey(h), r.slot)
      ensures r.Inserted? ==> old(broadcastTable[r.slot]).None?
      ensures r.TableFull? <==> Occupied(old(broadcastTable[..])) == BroadcastBufSize && !r.Replaced?
      ensures r.TableFull? ==> broadcastTable[..] == old(broadcastTable[..])
    {
      ghost var before := broadcastTable[..];
      r := Register(broadcastTable, h, BroadKey);
      if r.TableFull? { FullTableOccupied(before); }
      if r.Inserted? { assert before[r.slot].None?; NotFullOccupied(before, r.slot); }
    }

    /** cvnp_registerNonCHandler: as for broadcast handlers, keyed by the
        raw frame id. */
    method RegisterNonCHandler(h: NonCHandler) returns (r: Registration)
      requires Valid()
      modifies nonCTable
      ensures Valid()
      ensures !r.TableFull? ==> r.slot < nonCTable.Length && nonCTable[..] == old(nonCTable[..])[r.slot := Some(h)]
      ensures r.Replaced? <==> exists i :: HasKeyAt(old(nonCTable[..]), NonCKey, NonCKey(h), i)
      ensures r.Replaced? ==> HasKeyAt(old(nonCTable[..]), NonCKey, NonCKey(h), r.slot)
      ensures r.Inserted? ==> old(nonCTable[r.slot]).None?
      ensures r.TableFull? <==> Occupied(old(nonCTable[..])) == NonCompliantBufSize && !r.Replaced?
      ensures r.TableFull? ==> nonCTable[..] == old(nonCTable[..])
    {
      ghost var before := nonCTable[..];
      r := Register(nonCTable, h, NonCKey);
      if r.TableFull? { FullTableOccupied(before); }
      if r.Inserted? { assert before[r.slot].None?; NotFullOccupied(before, r.slot); }
    }

    /** cvnp_query (correlation part): the handler for the query lands in
        the multicast table when the target's class or instance is the
        wildcard 0, else in the standard table: in its first free slot,
        or, when the table is full, over the oldest entry, which is told
        it was killed. This device's class and instance are stored into
        6- and 4-bit fields, so only their low bits are kept. */
    method Query(info: QueryInfo, now: u32) returns (slot: nat, killed: seq<Callback>)
      requires Valid() && info.InRange()
      modifies multicastTable, stdQueryTable
      ensures Valid()
      ensures var h := QueryHandler(CompliantId(0, 0, myClass % 64, myInst % 16, info.rcls, info.rinst, info.ddef),
                                    info.timeout, info.doesTimeOut, now, info.procFrame, info.onDeath);
              var multicast := info.rcls == 0 || info.rinst == 0;
              var t := if multicast then multicastTable else stdQueryTable;
              var other := if multicast then stdQueryTable else multicastTable;
              && other[..] == old(other[..])
              && slot < t.Length && t[..] == old(t[..])[slot := Some(h)]
              && (old(t[slot]).None? ==>
                    killed == [] && forall j :: 0 <= j < slot ==> old(t[j]).Some?)
              && (old(t[slot]).Some? ==>
                    && killed == [OnDeath(old(t[slot]).value.onDeath, true)]
                    && forall j :: 0 <= j < t.Length ==>
                         old(t[j]).Some? && old(t[slot]).value.submitted <= old(t[j]).value.submitted)
              && (killed != [] <==> Occupied(old(t[..])) == t.Length)
    {
      var h := QueryHandler(CompliantId(0, 0, myClass % 64, myInst % 16, info.rcls, info.rinst, info.ddef),
                            info.timeout, info.doesTimeOut, now, info.procFrame, info.onDeath);
      var t := if info.rcls == 0 || info.rinst == 0 then multicastTable else stdQueryTable;
      ghost var before := t[..];
      slot, killed := InstallQuery(t, h);
      if forall i :: 0 <= i < t.Length ==> before[i].Some? {
        FullTableOccupied(before);
      } else {
        var j :| 0 <= j < t.Length && before[j].None?;
        NotFullOccupied(before, j);
      }
    }

    /** The TTL sweep: every expired query in either table is removed and
        its pfnOnDeath called with bWasKilled = false; nothing else changes. */
    method ExpireQueries(now: u32) returns (deaths: seq<Callback>)
      requires Valid()
      modifies multicastTable, stdQueryTable
      ensures Valid()
      ensures forall i :: 0 <= i < StdQueryBufSize ==> stdQueryTable[i] == SweptSlot(old(stdQueryTable[i]), now)
      ensures forall i :: 0 <= i < MulticastBufSize ==> multicastTable[i] == SweptSlot(old(multicastTable[i]), now)
      ensures deaths == SweepDeaths(old(stdQueryTable[..]), now) + SweepDeaths(old(multicastTable[..]), now)
    {
      var d1 := SweepQueryTable(stdQueryTable, now);
      var d2 := SweepQueryTable(multicastTable, now);
      deaths := d1 + d2;
    }

    /** The broadcast sweep: every expired broadcast handler is removed
        and its pfnOnDeath called with bWasKilled = false; nothing else
        changes, and keys stay unique. */
    method ExpireBroadHandlers(now: u32) returns (deaths: seq<Callback>)
      requires Valid()
      modifies broadcastTable
      ensures Valid()
      ensures forall i :: 0 <= i < BroadcastBufSize ==> broadcastTable[i] == BroadSweptSlot(old(broadcastTable[i]), now)
      ensures deaths == BroadSweepDeaths(old(broadcastTable[..]), now)
    {
      ghost var before := broadcastTable[..];
      deaths := [];
      var i := 0;
      while i < broadcastTable.Length
        invariant 0 <= i <= broadcastTable.Length
        invariant forall j :: 0 <= j < i ==> broadcastTable[j] == BroadSweptSlot(before[j], now)
        invariant forall j :: i <= j < broadcastTable.Length ==> broadcastTable[j] == before[j]
        invariant deaths == BroadSweepDeaths(before[..i], now)
      {
        assert before[..i + 1][..i] == before[..i];
        var e := broadcastTable[i];
        if e.Some? && BroadExpired(e.value, now) {
          deaths := deaths + [OnDeath(e.value.onDeath, false)];
          broadcastTable[i] := None;
        }
        i := i + 1;
      }
      assert before[..broadcastTable.Length] == before;
    }

    /** The non-compliant watchdog sweep: every handler whose timeout has
        passed gets pfnOnDeath(false) and its last-run time set to now; no
        handler is removed, so keys stay unique. */
    method ExpireNonCHandlers(now: u32) returns (deaths: seq<Callback>)
      requires Valid()
      modifies nonCTable
      ensures Valid()
      ensures forall i :: 0 <= i < NonCompliantBufSize ==> nonCTable[i] == NonCSweptSlot(old(nonCTable[i]), now)
      ensures deaths == NonCSweepDeaths(old(nonCTable[..]), now)
    {
      ghost var before := nonCTable[..];
      deaths := [];
      var i := 0;
      while i < nonCTable.Length
        invariant 0 <= i <= nonCTable.Length
        invariant forall j :: 0 <= j < i ==> nonCTable[j] == NonCSweptSlot(before[j], now)
        invariant forall j :: i <= j < nonCTable.Length ==> nonCTable[j] == before[j]
        invariant deaths == NonCSweepDeaths(before[..i], now)
      {
        assert before[..i + 1][..i] == before[..i];
        var e := nonCTable[i];
        if e.Some? && NonCExpired(e.value, now) {
          deaths := deaths + [OnDeath(e.value.onDeath, false)];
          nonCTable[i] := Some(e.value.(lastRun := now));
        }
        i := i + 1;
      }
      assert before[..nonCTable.Length] == before;
      forall a, b | 0 <= a < b < nonCTable.Length && nonCTable[a].Some? && nonCTable[b].Some?
        ensures NonCKey(nonCTable[a].value) != NonCKey(nonCTable[b].value)
      {
        assert NonCKey(nonCTable[a].value) == NonCKey(before[a].value);
        assert NonCKey(nonCTable[b].value) == NonCKey(before[b].value);
      }
    }

    /** The broadcast handler that hears a frame with this id: the
        first slot matching on scls and ddef, and then the only one. */
    method FindBroadHandler(id: CompliantId) returns (slot: Option<nat>)
      requires Valid()
      ensures slot.Some? ==> (slot.value < broadcastTable.Length && broadcastTable[slot.value].Some?
                                && BroadMatches(broadcastTable[slot.value].value, id))
      ensures slot.Some? ==> (forall j :: 0 <= j < broadcastTable.Length && j != slot.value && broadcastTable[j].Some?
                                ==> !BroadMatches(broadcastTable[j].value, id))
      ensures slot.None? ==> (forall j :: 0 <= j < broadcastTable.Length && broadcastTable[j].Some?
                                ==> !BroadMatches(broadcastTable[j].value, id))
    {
      var i := 0;
      while i < broadcastTable.Length
        invariant 0 <= i <= broadcastTable.Length
        invariant forall j :: 0 <= j < i && broadcastTable[j].Some? ==> !BroadMatches(broadcastTable[j].value, id)
      {
        if broadcastTable[i].Some? && BroadMatches(broadcastTable[i].value, id) {
          assert HasKeyAt(broadcastTable[..], BroadKey, (id.scls, id.ddef), i);
          return Some(i);
        }
        i := i + 1;
      }
      return None;
    }

    /** The non-compliant handler for a raw frame id, if one is registered. */
    method FindNonCHandler(frameId: u32) returns (slot: Option<nat>)
      requires Valid()
      ensures slot.Some? ==> slot.value < nonCTable.Length && HasKeyAt(nonCTable[..], NonCKey, frameId, slot.value)
      ensures slot.Some? ==> (forall j :: 0 <= j < nonCTable.Length && j != slot.value
                                ==> !HasKeyAt(nonCTable[..], NonCKey, frameId, j))
      ensures slot.None? ==> forall j :: 0 <= j < nonCTable.Length ==> !HasKeyAt(nonCTable[..], NonCKey, frameId, j)
    {
      var i := 0;
      while i < nonCTable.Length
        invariant 0 <= i <= nonCTable.Length
        invariant forall j :: 0 <= j < i ==> !HasKeyAt(nonCTable[..], NonCKey, frameId, j)
      {
        if nonCTable[i].Some? && nonCTable[i].value.id == frameId {
          return Some(i);
        }
        i := i + 1;
      }
      return None;
    }
  }

  /** A broadcast handler ignores every id field but scls and ddef. */
  lemma BroadMatchIgnoresOtherFields(h: BroadHandler, id: CompliantId, other: CompliantId)
    requires other.scls == id.scls && other.ddef == id.ddef
    ensures BroadMatches(h, id) == BroadMatches(h, other)
  {
  }

  lemma EmptyTableUnoccupied<T>(s: seq<Option<T>>)
    requires forall i :: 0 <= i < |s| ==> s[i].None?
    ensures Occupied(s) == 0
  {
    if s != [] { EmptyTableUnoccupied(s[..|s| - 1]); }
  }

  /** A table counts as full exactly when every slot is occupied. */
  lemma {:induction false} FullTableOccupied<T>(s: seq<Option<T>>)
    requires forall i :: 0 <= i < |s| ==> s[i].Some?
    ensures Occupied(s) == |s|
  {
    if s != [] { FullTableOccupied(s[..|s| - 1]); }
  }

  lemma {:induction false} NotFullOccupied<T>(s: seq<Option<T>>, k: nat)
    requires k < |s| && s[k].None?
    ensures Occupied(s) < |s|
  {
    if k < |s| - 1 { NotFullOccupied(s[..|s| - 1], k); }
  }
}

=== FILE: cvnp_id.dfy ===
/** The CVNP compliant identifier (tCompliantId) and its conversion to and
    from the 29-bit extended CAN identifier (cvnp_idToStruct,
    cvnp_structToId).

    The header declares the record as seven bit-fields but leaves their
    order within the integer id undefined. This model packs them, least
    significant bit first: ddef bits 0-6, rinst 7-10, rcls 11-16,
    sinst 17-20, scls 21-26, broad bit 27, nonc bit 28. */
module CvnpId {
  import opened Types

  /** Bit positions of the fields (the assumed layout). */
  const RinstShift: nat := 0x80        // 2^7
  const RclsShift: nat := 0x800        // 2^11
  const SinstShift: nat := 0x2_0000    // 2^17
  const SclsShift: nat := 0x20_0000    // 2^21
  const BroadShift: nat := 0x800_0000  // 2^27
  const NoncShift: nat := 0x1000_0000  // 2^28
  /** 2^29: every packed id lies below this. */
  const IdLimit: nat := 0x2000_0000

  datatype CompliantId = CompliantId(
    broad: nat,   // 1 bit: broadcast frame
    nonc: nat,    // 1 bit: non-compliant frame
    scls: nat,    // 6 bits: sender class
    sinst: nat,   // 4 bits: sender instance
    rcls: nat,    // 6 bits: receiver class
    rinst: nat,   // 4 bits: receiver instance
    ddef: nat)    // 7 bits: data definition
  {
    /** Every field lies within its bit-field width. */
    predicate InRange() {
      broad < 2 && nonc < 2 && scls < 64 && sinst < 16 && rcls < 64 && rinst < 16 && ddef < 128
    }
  }

  /** cvnp_idToStruct: breaks the bits of an integer id out into the
      fields. Bits 29-31 of the id are ignored. */
  function IdToStruct(id: u32): (s: CompliantId)
    ensures s.InRange()
    ensures s.ddef == id as int % 128
  {
    var w := id as int;
    var w1 := w / 128;
    var w2 := w1 / 16;
    var w3 := w2 / 64;
    var w4 := w3 / 16;
    var w5 := w4 / 64;
    CompliantId(w5 % 2, (w5 / 2) % 2, w4 % 64, w3 % 16, w2 % 64, w1 % 16, w % 128)
  }

  /** cvnp_structToId: packs the fields into an integer id. */
  function StructToId(s: CompliantId): (id: u32)
    requires s.InRange()
    ensures id as int < IdLimit
    ensures id as int == s.ddef + s.rinst * RinstShift + s.rcls * RclsShift + s.sinst * SinstShift
                         + s.scls * SclsShift + s.broad * BroadShift + s.nonc * NoncShift
  {
    (s.ddef + 128 * (s.rinst + 16 * (s.rcls + 64 * (s.sinst + 16 * (s.scls + 64 * (s.broad + 2 * s.nonc))))))
      as u32
  }

  /** Decoding an encoded record gives the record back. */
  lemma DecodeEncode(s: CompliantId)
    requires s.InRange()
    ensures IdToStruct(StructToId(s)) == s
  {
    var v5 := s.broad + 2 * s.nonc;
    var v4 := s.scls + 64 * v5;
    var v3 := s.sinst + 16 * v4;
    var v2 := s.rcls + 64 * v3;
    var v1 := s.rinst + 16 * v2;
    var w := s.ddef + 128 * v1;
    assert StructToId(s) as int == w;
    Split(s.ddef, v1, 128);
    Split(s.rinst, v2, 16);
    Split(s.rcls, v3, 64);
    Split(s.sinst, v4, 16);
    Split(s.scls, v5, 64);
    Split(s.broad, s.nonc, 2);
    Split(s.nonc, 0, 2);
    var d := IdToStruct(StructToId(s));
    assert d.ddef == s.ddef && d.rinst == s.rinst && d.rcls == s.rcls;
    assert d.sinst == s.sinst && d.scls == s.scls && d.broad == s.broad && d.nonc == s.nonc;
  }

  /** Encoding a decoded id gives the id back, once bits 29-31 are dropped. */
  lemma EncodeDecode(id: u32)
    ensures StructToId(IdToStruct(id)) as int == id as int % IdLimit
  {
    var w := id as int;
    var w1 := w / 128;
    var w2 := w1 / 16;
    var w3 := w2 / 64;
    var w4 := w3 / 16;
    var w5 := w4 / 64;
    var w6 := w5 / 2;
    var packed := StructToId(IdToStruct(id)) as int;
    assert w5 == w5 % 2 + 2 * (w6 % 2) + 4 * (w6 / 2);
    assert w4 == w4 % 64 + 64 * w5;
    assert w3 == w3 % 16 + 16 * w4;
    assert w2 == w2 % 64 + 64 * w3;
    assert w1 == w1 % 16 + 16 * w2;
    assert w == w % 128 + 128 * w1;
    assert packed == w % 128 + 128 * (w1 % 16 + 16 * (w2 % 64 + 64 * (w3 % 16 + 16 * (w4 % 64 + 64 * (w5 % 2 + 2 * (w6 % 2))))));
    assert w == packed + IdLimit * (w6 / 2);
    Split(packed, w6 / 2, IdLimit);
  }
}

=== FILE: fault.dfy ===
/** The fault table (fault.c): one hook per fault code, holding the set
    flag, the assert time, the stored 64-bit fault data and two callbacks.
    Callbacks are function-pointer identities; each call the module makes
    into one is returned as a HookCall. */
module Fault {
  import opened Types

  /** FAULT_NUM_FAULTS: the number of codes in tFaultCode. */
  const NumFaults: nat := 32
  /** FAULT_VCM_COMM, the last code. */
  const FaultVcmComm: nat := 31

  /** tFaultData: a 64-bit union, kept as its bits. */
  type FaultData = bv64

  /** tFaultHook. tSet is a 31-bit field. */
  datatype FaultHook = FaultHook(isSet: bool, tSet: u31, onAssert: FnRef, onDeassert: FnRef, data: FaultData)

  /** A call into a fault hook. An assert callback also records `seen`,
      the hook as it stands in g_faults while the callback runs. */
  datatype HookCall = OnAssert(fn: FnRef, data: FaultData, seen: FaultHook) | OnDeassert(fn: FnRef)

  /** A hook after fault_assert: a clear fault becomes set and takes the
      data; a set fault is left exactly as it was. */
  function Asserted(h: FaultHook, data: FaultData): FaultHook {
    if h.isSet then h else h.(isSet := true, data := data)
  }

  /** The calls fault_assert makes: pfnOnAssert(data) once, and only
      when the fault was clear. The flag is raised before the call and
      the data stored after it, so the callback sees the hook set but
      still holding its old data. */
  function AssertCalls(h: FaultHook, data: FaultData): seq<HookCall> {
    if h.isSet then [] else [OnAssert(h.onAssert, data, h.(isSet := true))]
  }

  /** The state an assert callback observes: the fault already set, the
      previous data still stored, and nothing else changed; the stored
      data becomes the new data only once the callback has returned. */
  lemma AssertCallSeesOldData(h: FaultHook, data: FaultData)
    requires !h.isSet
    ensures |AssertCalls(h, data)| == 1
    ensures AssertCalls(h, data)[0].seen == h.(isSet := true)
    ensures AssertCalls(h, data)[0].seen.data == h.data
    ensures Asserted(h, data) == AssertCalls(h, data)[0].seen.(data := data)
  {
  }

  /** Asserting twice is asserting once: the second assert changes
      nothing, makes no call and keeps the first data. */
  lemma AssertIdempotent(h: FaultHook, d1: FaultData, d2: FaultData)
    ensures Asserted(Asserted(h, d1), d2) == Asserted(h, d1)
    ensures AssertCalls(Asserted(h, d1), d2) == []
    ensures Asserted(h, d1).isSet && (!h.isSet ==> Asserted(h, d1).data == d1)
  {
  }

  /** The fault summary word: bit i carries the flag of hook i. */
  function Summary(hs: seq<FaultHook>): (w: nat)
    ensures w < Pow2(|hs|)
  {
    if hs == [] then 0 else (if hs[0].isSet then 1 else 0) + 2 * Summary(hs[1..])
  }

  /** Bit k of the summary is the flag of fault k, and every bit from
      |hs| upward is clear. */
  lemma {:induction false} SummaryBit(hs: seq<FaultHook>, k: nat)
    ensures Bit(Summary(hs), k) <==> k < |hs| && hs[k].isSet
  {
    if hs == [] {
      ZeroBits(k);
    } else if k > 0 {
      SummaryBit(hs[1..], k - 1);
    }
  }

  /** Adding 2^i to a value below 2^i sets bit i and keeps every other
      bit: on such values `|= 1 << i` and `+ 2^i` agree. */
  lemma {:induction false} SetBitAbove(w: nat, i: nat, k: nat)
    requires w < Pow2(i)
    ensures Bit(w + Pow2(i), k) <==> Bit(w, k) || k == i
  {
    if i == 0 {
      if k > 0 { ZeroBits(k - 1); ZeroBits(k); }
    } else if k > 0 {
      assert (w + Pow2(i)) / 2 == w / 2 + Pow2(i - 1);
      SetBitAbove(w / 2, i - 1, k - 1);
    }
  }

  lemma {:induction false} ZeroBits(k: nat)
    ensures !Bit(0, k)
  {
    if k > 0 { ZeroBits(k - 1); }
  }

  /** The summary is zero exactly when no fault is set. */
  lemma {:induction false} SummaryZero(hs: seq<FaultHook>)
    ensures Summary(hs) == 0 <==> forall k :: 0 <= k < |hs| ==> !hs[k].isSet
  {
    if hs != [] {
      SummaryZero(hs[1..]);
      assert forall k :: 1 <= k < |hs| ==> hs[k] == hs[1..][k - 1];
    }
  }

  /** Adding one more hook at the top adds its flag at bit |hs|: the
      step of the accumulation loop. Since Summary(hs) < 2^|hs|, this
      addition is the loop's OR (SetBitAbove). */
  lemma {:induction false} SummarySnoc(hs: seq<FaultHook>, h: FaultHook)
    ensures Summary(hs + [h]) == Summary(hs) + (if h.isSet then Pow2(|hs|) else 0)
  {
    if hs != [] {
      assert (hs + [h])[1..] == hs[1..] + [h];
      SummarySnoc(hs[1..], h);
    }
  }

  class FaultTable {
    const faults: array<FaultHook>    // g_faults
    /** Identities of _fault_defaultOnAsert and _fault_defaultOnDeasert. */
    const defaultOnAssert: FnRef
    const defaultOnDeassert: FnRef

    /** The table has one hook per code, and ui32TSet is never written
        with anything but 0. */
    ghost predicate Valid()
      reads this, faults
    {
      faults.Length == NumFaults && forall i :: 0 <= i < NumFaults ==> faults[i].tSet == 0
    }

    /** g_faults has static storage: all hooks zeroed, callbacks NULL. */
    constructor (onAssertDefault: FnRef, onDeassertDefault: FnRef)
      ensures Valid()
      ensures defaultOnAssert == onAssertDefault && defaultOnDeassert == onDeassertDefault
      ensures fresh(faults)
      ensures forall i :: 0 <= i < NumFaults ==> faults[i] == FaultHook(false, 0, NULL, NULL, 0)
    {
      defaultOnAssert, defaultOnDeassert := onAssertDefault, onDeassertDefault;
      faults := new FaultHook[NumFaults](_ => FaultHook(false, 0, NULL, NULL, 0));
    }

    /** fault_init: binds the default hooks and clears every fault and
        time; the stored data is not touched. The summary is then 0. */
    method Init()
      requires Valid()
      modifies faults
      ensures Valid()
      ensures forall i :: 0 <= i < NumFaults ==>
                faults[i] == FaultHook(false, 0, defaultOnAssert, defaultOnDeassert, old(faults[i].data))
      ensures Summary(faults[..]) == 0
    {
      for i := 0 to NumFaults
        invariant forall j :: 0 <= j < i ==>
                    faults[j] == FaultHook(false, 0, defaultOnAssert, defaultOnDeassert, old(faults[j].data))
        invariant forall j :: i <= j < NumFaults ==> faults[j] == old(faults[j])
      {
        faults[i] := FaultHook(false, 0, defaultOnAssert, defaultOnDeassert, faults[i].data);
      }
      SummaryZero(faults[..]);
    }

    /** fault_getFaultSummary: bit i is set exactly when fault i is set,
        and no bit at or above FAULT_NUM_FAULTS is ever set. */
    method GetFaultSummary() returns (sum: nat)
      requires Valid()
      ensures sum < Pow2(64)
      ensures forall k :: 0 <= k < 64 ==> (Bit(sum, k) <==> k < NumFaults && faults[k].isSet)
      ensures sum == 0 <==> forall k :: 0 <= k < NumFaults ==> !faults[k].isSet
    {
      sum := 0;
      for i := 0 to NumFaults
        invariant sum == Summary(faults[..i])
      {
        assert faults[..i + 1] == faults[..i] + [faults[i]];
        SummarySnoc(faults[..i], faults[i]);
        sum := sum + (if faults[i].isSet then Pow2(i) else 0);
      }
      assert faults[..NumFaults] == faults[..];
      forall k | 0 <= k < 64 ensures Bit(sum, k) <==> k < NumFaults && faults[k].isSet {
        SummaryBit(faults[..], k);
      }
      SummaryZero(faults[..]);
      Pow2Mono(NumFaults, 64);
    }

    /** fault_assert: a clear fault is set, its pfnOnAssert is called
        with the data, and then the data is stored; a fault already set is
        left alone and nothing is called. Only entry `num` changes. The
        index is not range-checked by fault_assert, hence the requires. */
    method Assert(num: nat, data: FaultData) returns (calls: seq<HookCall>)
      requires Valid() && num < NumFaults
      modifies faults
      ensures Valid()
      ensures faults[..] == old(faults[..])[num := Asserted(old(faults[num]), data)]
      ensures calls == AssertCalls(old(faults[num]), data)
    {
      calls := [];
      if !faults[num].isSet {
        faults[num] := faults[num].(isSet := true);
        calls := [OnAssert(faults[num].onAssert, data, faults[num])];
        faults[num] := faults[num].(data := data);
      }
    }

    /** fault_deassert: clears the flag and calls pfnOnDeassert, whether
        or not the fault was set. Only entry `num` changes. */
    method Deassert(num: nat) returns (calls: seq<HookCall>)
      requires Valid() && num < NumFaults
      modifies faults
      ensures Valid()
      ensures faults[..] == old(faults[..])[num := old(faults[num]).(isSet := false)]
      ensures calls == [OnDeassert(old(faults[num]).onDeassert)]
    {
      faults[num] := faults[num].(isSet := false);
      calls := [OnDeassert(faults[num].onDeassert)];
    }

    /** fault_getFaultData: the data stored by the last effective assert. */
    method GetFaultData(num: nat) returns (data: FaultData)
      requires Valid() && num < NumFaults
      ensures data == faults[num].data
    {
      data := faults[num].data;
    }

    /** fault_getFaultTime: ui32TSet is only ever written with 0, so the
        time read back is always 0. */
    method GetFaultTime(num: nat) returns (t: u32)
      requires Valid() && num < NumFaults
      ensures t == 0
    {
      t := faults[num].tSet as u32;
    }

    /** fault_regHook: replaces both callbacks of entry `num`; the flag,
        time and data are kept. Only entry `num` changes. */
    method RegHook(num: nat, onAssert: FnRef, onDeassert: FnRef)
      requires Valid() && num < NumFaults
      modifies faults
      ensures Valid()
      ensures faults[..] == old(faults[..])[num := old(faults[num]).(onAssert := onAssert, onDeassert := onDeassert)]
    {
      faults[num] := faults[num].(onAssert := onAssert, onDeassert := onDeassert);
    }
  }
}

=== FILE: ina225.dfy ===
/** The INA225 current-sense amplifier driver (ina225.c): gain
    autoranging over the four gain settings, the encoding of a gain on
    the GS0/GS1 select pins, and the ADC holdoff that follows each gain
    change.

    The ADC reading arrives as a parameter; the current is kept as the
    gain index and ADC value it is scaled from, since the scale table is
    floating point. */
module Ina225 {
  import opened Types

  /** tInaGain. */
  const Gain25: u32 := 0
  const Gain50: u32 := 1
  const Gain100: u32 := 2
  const Gain200: u32 := 3
  /** Entries of g_adcScl, one per gain. */
  const NumGains: nat := 4

  /** INA_ADC_HIGH_LIMIT: a reading at or above it steps the gain down. */
  const AdcHighLimit: u32 := 4085
  /** INA_ADC_LOW_LIMIT, 4096 / 3 in integer division: a reading at or
      below it steps the gain up. */
  const AdcLowLimit: u32 := 4096 / 3

  /** INA_GS0_PIN and INA_GS1_PIN: GPIO_PIN_5 and GPIO_PIN_4 of the port,
      i.e. bits 5 and 4 (TivaWare's pin values, assumed here). */
  const Gs0Pin: bv8 := 0x20
  const Gs1Pin: bv8 := 0x10
  const GsMask: bv8 := Gs0Pin | Gs1Pin

  /** The gain after one sample: down one step on a reading at or above
      the high limit unless already at the lowest gain, otherwise up one
      step on a reading at or below the low limit unless already at the
      highest gain, otherwise unchanged. */
  function NextGain(gain: u32, adc: u32): u32 {
    if gain > Gain25 && adc >= AdcHighLimit then gain - 1
    else if gain < Gain200 && adc <= AdcLowLimit then gain + 1
    else gain
  }

  /** The autoranging rule: the gain stays a valid index of the scale
      table, moves by at most one step, and moves exactly as the limits
      say. */
  lemma GainStep(gain: u32, adc: u32)
    requires gain as nat < NumGains
    ensures NextGain(gain, adc) as nat < NumGains
    ensures AdcLowLimit == 1365
    ensures gain > Gain25 && adc >= AdcHighLimit ==> NextGain(gain, adc) as int == gain as int - 1
    ensures !(gain > Gain25 && adc >= AdcHighLimit) && gain < Gain200 && adc <= AdcLowLimit ==>
              NextGain(gain, adc) as int == gain as int + 1
    ensures AdcLowLimit < adc < AdcHighLimit ==> NextGain(gain, adc) == gain
    ensures !(gain > Gain25 && adc >= AdcHighLimit) && !(gain < Gain200 && adc <= AdcLowLimit) ==>
              NextGain(gain, adc) == gain
    ensures -1 <= NextGain(gain, adc) as int - gain as int <= 1
  {
  }

  /** The gain after a run of samples. */
  function GainAfter(gain: u32, readings: seq<u32>): (g: u32)
    requires gain as nat < NumGains
    ensures g as nat < NumGains
    decreases |readings|
  {
    if readings == [] then gain else GainAfter(NextGain(gain, readings[0]), readings[1..])
  }

  /** Since the low limit is below the high one, a steady reading never
      makes the gain oscillate: over any number of samples of the same
      reading the gain only falls, only rises, or stays put. */
  lemma {:induction false} SteadyReadingIsMonotone(gain: u32, adc: u32, k: nat)
    requires gain as nat < NumGains
    ensures adc >= AdcHighLimit ==> GainAfter(gain, seq(k, _ => adc)) <= gain
    ensures adc <= AdcLowLimit ==> GainAfter(gain, seq(k, _ => adc)) >= gain
    ensures AdcLowLimit < adc < AdcHighLimit ==> GainAfter(gain, seq(k, _ => adc)) == gain
    decreases k
  {
    if k > 0 {
      var rs := seq(k, _ => adc);
      assert rs[1..] == seq(k - 1, _ => adc);
      SteadyReadingIsMonotone(NextGain(gain, adc), adc, k - 1);
    }
  }

  /** The pin word ina_setGain builds: GS1 from bit 0 of the gain, GS0
      from bit 1. */
  function GainPins(gain: u32): (w: bv8)
    ensures w & !GsMask == 0
  {
    (if gain as int % 2 == 1 then Gs1Pin else 0) | (if gain as int / 2 % 2 == 1 then Gs0Pin else 0)
  }

  /** GPIOPinWrite: the pins under the mask take the value's bits, the
      other pins of the port keep theirs. */
  function PinWrite(port: bv8, pins: bv8, val: bv8): bv8 {
    (port & !pins) | (val & pins)
  }

  /** The gain the amplifier reads from its select pins. */
  function GainOfPins(port: bv8): nat {
    (if port & Gs1Pin != 0 then 1 else 0) + (if port & Gs0Pin != 0 then 2 else 0)
  }

  /** Writing a gain's pin word puts exactly that gain on the select pins
      and leaves every other pin of the port as it was. */
  lemma PinsEncodeGain(gain: u32, port: bv8)
    requires gain as nat < NumGains
    ensures GainOfPins(PinWrite(port, GsMask, GainPins(gain))) == gain as nat
    ensures PinWrite(port, GsMask, GainPins(gain)) & !GsMask == port & !GsMask
  {
    if gain == 0 {
      assert GainPins(gain) == 0;
    } else if gain == 1 {
      assert GainPins(gain) == Gs1Pin;
    } else if gain == 2 {
      assert GainPins(gain) == Gs0Pin;
    } else {
      assert GainPins(gain) == GsMask;
    }
  }

  /** g_current as the gain index and ADC value it is computed from:
      g_adcScl[gain] * adc. */
  datatype Sample = Sample(gain: u32, adc: u32)

  /** The driver's static state and the hardware it drives. */
  class Sensor {
    var gain: u32        // g_currGain
    var current: Sample  // g_current
    var gsPort: bv8      // output levels of the gain-select port
    var sampling: bool   // ADC sequence enabled
    var holdoff: bool    // holdoff timer running

    /** The gain indexes g_adcScl. */
    ghost predicate Valid()
      reads this
    {
      gain as nat < NumGains
    }

    /** Static storage: gain 0 and a zero current; the port keeps
        whatever levels it has. */
    constructor (port: bv8)
      ensures Valid()
      ensures gain == Gain25 && current == Sample(0, 0) && gsPort == port && !sampling && !holdoff
    {
      gain, current, gsPort := Gain25, Sample(0, 0), port;
      sampling, holdoff := false, false;
    }

    /** ina_setGain: stores the gain, writes its pin word under the GS0|GS1
        mask only, stops sampling and starts the holdoff timer. The gain
        must be one of tInaGain, since it later indexes g_adcScl. */
    method SetGain(g: u32)
      requires g as nat < NumGains
      modifies this
      ensures Valid() && gain == g
      ensures gsPort == PinWrite(old(gsPort), GsMask, GainPins(g))
      ensures GainOfPins(gsPort) == g as nat && gsPort & !GsMask == old(gsPort) & !GsMask
      ensures !sampling && holdoff && current == old(current)
    {
      gain := g;
      var gsVal: bv8 := if g as int % 2 == 1 then Gs1Pin else 0;
      gsVal := gsVal | (if g as int / 2 % 2 == 1 then Gs0Pin else 0);
      gsPort := PinWrite(gsPort, Gs0Pin | Gs1Pin, gsVal);
      PinsEncodeGain(g, old(gsPort));
      sampling := false;
      holdoff := true;
    }

    /** _ina_onHoldoffDone: the timer stops and sampling resumes. */
    method OnHoldoffDone()
      modifies this
      ensures sampling && !holdoff
      ensures gain == old(gain) && current == old(current) && gsPort == old(gsPort)
    {
      holdoff := false;
      sampling := true;
    }

    /** _ina_onSampleDone: the current is scaled with the gain the sample
        was taken at, then the gain takes one autoranging step; a step goes
        through ina_setGain; without a step nothing else changes. */
    method OnSampleDone(adc: u32)
      requires Valid()
      modifies this
      ensures Valid()
      ensures current == Sample(old(gain), adc)
      ensures gain == NextGain(old(gain), adc)
      ensures gain != old(gain) ==>
                gsPort == PinWrite(old(gsPort), GsMask, GainPins(gain)) && !sampling && holdoff
      ensures gain == old(gain) ==>
                gsPort == old(gsPort) && sampling == old(sampling) && holdoff == old(holdoff)
    {
      current := Sample(gain, adc);
      if gain > Gain25 && adc >= AdcHighLimit {
        SetGain(gain - 1);
      } else if gain < Gain200 && adc <= AdcLowLimit {
        SetGain(gain + 1);
      }
    }

    /** ina_init: the ADC and timer set-up, then ina_setGain(INA_GAIN_200). */
    method Init()
      modifies this
      ensures Valid() && gain == Gain200
      ensures GainOfPins(gsPort) == 3 && gsPort & !GsMask == old(gsPort) & !GsMask
      ensures !sampling && holdoff && current == old(current)
    {
      SetGain(Gain200);
    }
  }
}

=== FILE: kbl.dfy ===
/** The KBL96151 motor-controller driver (kbl.c): a round-robin query
    state machine over the two controllers and the dispatch of their
    replies by the query last sent to each side.

    The identifiers, frame codes, tick period and timeout are KBL_* macros
    that kbl.c uses but neither kbl.c nor kbl.h defines; the model takes
    them as a configuration. The floating-point scaling of the parsed values is not
    modelled: the record keeps the integer values and raw bytes each float
    is computed from. */
module Kbl {
  import opened Types
  import Cvnp

  /** The seven query types, in the order of the kbl_tick schedule and of
      the _kbl_parseFrameGen switch. */
  datatype QueryKind = A2DBatch1 | A2DBatch2 | Ccp1 | Ccp2 | ComSwAcc | ComSwRev | ComSwBrk

  /** Query type for each value of state >> 1. */
  const Schedule: seq<QueryKind> := [A2DBatch1, A2DBatch2, Ccp1, Ccp2, ComSwAcc, ComSwRev, ComSwBrk]

  /** Number of states in the tick cycle: 14 query states and the reset. */
  const CycleLength: nat := 15

  datatype KblConfig = KblConfig(
    idTxLeft: u32, idTxRight: u32,      // KBL_ID_TX_LEFT / _RIGHT
    idRxLeft: u32, idRxRight: u32,      // KBL_ID_RX_LEFT / _RIGHT
    tickUpdatePeriod: u32,              // KBL_TICK_UPDATE_PERIOD
    canTimeout: u31,                    // KBL_CAN_TIMEOUT
    frameCodes: seq<byte>,              // KBL_FRAME_* in Schedule order
    parseFrameGenFn: FnRef,             // _kbl_parseFrameGen
    onFrameTimeoutFn: FnRef)            // _kbl_onFrameTimeout
  {
    /** What the C build needs of the macros: seven distinct case labels
        and a nonzero divisor. The two receive ids differ by assumption:
        equal ids would compile, but the second registration in kbl_init
        would then replace the first. */
    predicate Valid() {
      && |frameCodes| == 7
      && (forall i, j :: 0 <= i < j < 7 ==> frameCodes[i] != frameCodes[j])
      && tickUpdatePeriod > 0
      && idRxLeft != idRxRight
    }

    /** The KBL_FRAME_* byte of a query type. */
    function Code(k: QueryKind): byte
      requires Valid()
    {
      match k
      case A2DBatch1 => frameCodes[0]
      case A2DBatch2 => frameCodes[1]
      case Ccp1 => frameCodes[2]
      case Ccp2 => frameCodes[3]
      case ComSwAcc => frameCodes[4]
      case ComSwRev => frameCodes[5]
      case ComSwBrk => frameCodes[6]
    }

    /** The case of the _kbl_parseFrameGen switch a query byte selects. */
    function KindOf(b: byte): (r: Option<QueryKind>)
      requires Valid()
      ensures r.Some? ==> Code(r.value) == b
      ensures r.None? ==> forall k: QueryKind :: Code(k) != b
    {
      if b == frameCodes[0] then Some(A2DBatch1)
      else if b == frameCodes[1] then Some(A2DBatch2)
      else if b == frameCodes[2] then Some(Ccp1)
      else if b == frameCodes[3] then Some(Ccp2)
      else if b == frameCodes[4] then Some(ComSwAcc)
      else if b == frameCodes[5] then Some(ComSwRev)
      else if b == frameCodes[6] then Some(ComSwBrk)
      else None
    }

    /** The query byte kbl_tick sends from state s: the code of query type
        s >> 1 in the 14 query states, and from the reset state the byte
        `unassigned` the stack happens to hold. */
    function QueryByte(s: nat, unassigned: byte): byte
      requires Valid()
    {
      if s / 2 < |Schedule| then Code(Schedule[s / 2]) else unassigned
    }
  }

  /** kbl_tick queries the left controller from odd states and the right
      one from even states. */
  predicate QueriesLeft(s: nat) { s % 2 == 1 }

  /** The position of a query type in the schedule. */
  function ScheduleIndex(k: QueryKind): (q: nat)
    ensures q < |Schedule| && Schedule[q] == k
  {
    match k
    case A2DBatch1 => 0
    case A2DBatch2 => 1
    case Ccp1 => 2
    case Ccp2 => 3
    case ComSwAcc => 4
    case ComSwRev => 5
    case ComSwBrk => 6
  }

  /** The state that sends query type k to one side. */
  function StateFor(k: QueryKind, left: bool): nat {
    2 * ScheduleIndex(k) + (if left then 1 else 0)
  }

  /** The byte sent for a query type is decoded back to that type. */
  lemma KindOfCode(cfg: KblConfig, k: QueryKind)
    requires cfg.Valid()
    ensures cfg.KindOf(cfg.Code(k)) == Some(k)
  {
  }

  /** tMotorData, integer parts. The float fields are functions of the
      raw bytes kept here. */
  datatype MotorData = MotorData(
    batch1: seq<byte>,          // A2D batch 1 bytes 0-4: brake, throttle, vOperating, vs, vBat
    batch2: seq<byte>,          // A2D batch 2 bytes 0-5: ia, ib, ic, va, vb, vc
    tMot: nat,                  // motor temperature in degrees; 0 when the sensor reads 0xFF
    controllerTemps: seq<byte>, // the three internal temperatures averaged into tController
    rpmWord: nat,               // 16-bit rpm word that mechRPM is scaled from
    iMotRaw: byte,              // byte that iMot is scaled from
    swThrottle: bool, swBrake: bool, swRev: bool)

  /** A statically allocated record: every field zero. */
  const ZeroMotorData := MotorData([0, 0, 0, 0, 0], [0, 0, 0, 0, 0, 0], 0, [0, 0, 0], 0, 0, false, false, false)

  /** _kbl_parseCCP2: the rpm word is data[0] in the high byte and data[1]
      in the low byte. */
  function RpmWord(data: seq<byte>): (w: nat)
    requires |data| == 8
    ensures w < 0x1_0000
    ensures w / 256 == data[0] as nat && w % 256 == data[1] as nat
  {
    data[0] as nat * 256 + data[1] as nat
  }

  /** _kbl_parseCCP1: a motor-temperature byte of 0xFF means no sensor
      and records 0. */
  function MotorTemp(b: byte): (t: nat)
    ensures t < 0xFF
    ensures b == 0xFF ==> t == 0
    ensures b != 0xFF ==> t == b as nat
  {
    if b == 0xFF then 0 else b as nat
  }

  /** The record after the sub-parser a query type selects, as the
      switch in _kbl_parseFrameGen is written: the COM_SW_BRK case calls
      _kbl_parseComSwAcc. */
  function ParseReply(d: MotorData, k: QueryKind, data: seq<byte>): MotorData
    requires |data| == 8
  {
    match k
    case A2DBatch1 => d.(batch1 := data[..5])
    case A2DBatch2 => d.(batch2 := data[..6])
    case Ccp1 => d.(tMot := MotorTemp(data[2]), controllerTemps := data[3..6])
    case Ccp2 => d.(rpmWord := RpmWord(data), iMotRaw := data[2])
    case ComSwAcc => d.(swThrottle := data[0] != 0)
    case ComSwRev => d.(swRev := data[0] != 0)
    case ComSwBrk => d.(swThrottle := data[0] != 0)
  }

  /** The sub-parser the COM_SW_BRK case was evidently meant to call,
      _kbl_parseComSwBrk. */
  function ParseReplyIntended(d: MotorData, k: QueryKind, data: seq<byte>): MotorData
    requires |data| == 8
  {
    if k == ComSwBrk then d.(swBrake := data[0] != 0) else ParseReply(d, k, data)
  }

  /** As written, a COM_SW_BRK reply overwrites the throttle switch and
      never the brake switch; a reply with data[0] = 1 to a record with
      both switches clear shows it. */
  lemma BrakeReplyUpdatesThrottle(d: MotorData, data: seq<byte>)
    requires |data| == 8
    ensures ParseReply(d, ComSwBrk, data).swBrake == d.swBrake
    ensures ParseReply(d, ComSwBrk, data).swThrottle == (data[0] != 0)
    ensures d.swThrottle == d.swBrake == false && data[0] == 1 ==>
              ParseReply(d, ComSwBrk, data).swThrottle && !ParseReply(d, ComSwBrk, data).swBrake
  {
  }

  /** With the intended routing each switch query updates its own switch,
      from data[0] != 0, and nothing else in the record. */
  lemma SwitchRepliesIntended(d: MotorData, data: seq<byte>)
    requires |data| == 8
    ensures ParseReplyIntended(d, ComSwAcc, data) == d.(swThrottle := data[0] != 0)
    ensures ParseReplyIntended(d, ComSwBrk, data) == d.(swBrake := data[0] != 0)
    ensures ParseReplyIntended(d, ComSwRev, data) == d.(swRev := data[0] != 0)
  {
  }

  /** kbl_tick's state after a query tick: up by one through the 14
      query states, back to 0 from the reset state. */
  function NextState(s: nat): (t: nat)
    requires s < CycleLength
    ensures t < CycleLength
    ensures s < 14 ==> t == s + 1
    ensures s == 14 ==> t == 0
  {
    if s / 2 < |Schedule| then s + 1 else 0
  }

  /** The state after k query ticks. */
  function StateAfter(s: nat, k: nat): (t: nat)
    requires s < CycleLength
    ensures t < CycleLength
  {
    if k == 0 then s else NextState(StateAfter(s, k - 1))
  }

  /** The query ticks walk the states round a cycle of 15. */
  lemma {:induction false} StateCycle(s: nat, k: nat)
    requires s < CycleLength
    ensures StateAfter(s, k) == (s + k) % CycleLength
  {
    if k > 0 { StateCycle(s, k - 1); }
  }

  /** Within a cycle, states 2q+1 and 2q send Schedule[q]'s code to the
      left and the right controller; and each (side, query type) pair is
      sent from exactly one of the 14 query states, StateFor(k, left). */
  lemma {:induction false} ScheduleCoversBothSides(cfg: KblConfig, unassigned: byte)
    requires cfg.Valid()
    ensures forall q :: 0 <= q < |Schedule| ==>
              && QueriesLeft(2 * q + 1) && cfg.QueryByte(2 * q + 1, unassigned) == cfg.Code(Schedule[q])
              && !QueriesLeft(2 * q) && cfg.QueryByte(2 * q, unassigned) == cfg.Code(Schedule[q])
    ensures forall k: QueryKind, left: bool :: StateFor(k, left) < 14
    ensures forall s, k: QueryKind, left: bool :: 0 <= s < 14 ==>
              (QueriesLeft(s) == left && cfg.QueryByte(s, unassigned) == cfg.Code(k) <==> s == StateFor(k, left))
  {
    forall s, k: QueryKind, left: bool | 0 <= s < 14
      ensures QueriesLeft(s) == left && cfg.QueryByte(s, unassigned) == cfg.Code(k) <==> s == StateFor(k, left)
    {
      var q := ScheduleIndex(k);
      if QueriesLeft(s) == left && cfg.QueryByte(s, unassigned) == cfg.Code(k) {
        CodeInjective(cfg, Schedule[s / 2], k);
        assert s / 2 == q;
      }
    }
  }

  /** Distinct query types have distinct frame codes. */
  lemma CodeInjective(cfg: KblConfig, k1: QueryKind, k2: QueryKind)
    requires cfg.Valid() && cfg.Code(k1) == cfg.Code(k2)
    ensures k1 == k2
  {
    KindOfCode(cfg, k1);
    KindOfCode(cfg, k2);
  }

  /** The driver's static state. */
  class Driver {
    const cfg: KblConfig
    var lData: MotorData        // g_lMotData
    var rData: MotorData        // g_rMotData
    var lQuery: byte            // g_lMotQuery
    var rQuery: byte            // g_rMotQuery
    var state: nat              // kbl_tick's static state
    var callCount: u32          // kbl_tick's static callCount

    ghost predicate Valid()
      reads this
    {
      cfg.Valid() && state < CycleLength
    }

    /** Static initial values: both query bytes 0, the tick counters 0,
        and zeroed motor records. */
    constructor (config: KblConfig)
      requires config.Valid()
      ensures Valid() && cfg == config
      ensures lData == ZeroMotorData && rData == ZeroMotorData
      ensures lQuery == 0 && rQuery == 0 && state == 0 && callCount == 0
    {
      cfg := config;
      lData, rData := ZeroMotorData, ZeroMotorData;
      lQuery, rQuery := 0, 0;
      state, callCount := 0, 0;
    }

    /** _kbl_parseFrameGen: the reply is from the left controller exactly
        when its id is KBL_ID_RX_LEFT, any other id is taken as the right
        one; the query byte last saved for that side picks the sub-parser,
        and an unknown byte changes nothing. Only that side's record
        changes. */
    method ParseFrameGen(frame: CanFrame)
      requires Valid() && frame.Valid()
      modifies this
      ensures Valid()
      ensures lQuery == old(lQuery) && rQuery == old(rQuery) && state == old(state) && callCount == old(callCount)
      ensures var isLeft := frame.id == cfg.idRxLeft;
              var query := if isLeft then old(lQuery) else old(rQuery);
              var before := if isLeft then old(lData) else old(rData);
              var after := match cfg.KindOf(query)
                           case Some(k) => ParseReply(before, k, frame.data)
                           case None => before;
              if isLeft then lData == after && rData == old(rData)
              else rData == after && lData == old(lData)
    {
      var isLeft := frame.id == cfg.idRxLeft;
      var query := if isLeft then lQuery else rQuery;
      var dat := if isLeft then lData else rData;
      var data := frame.data;
      if query == cfg.frameCodes[0] {
        dat := dat.(batch1 := data[..5]);
      } else if query == cfg.frameCodes[1] {
        dat := dat.(batch2 := data[..6]);
      } else if query == cfg.frameCodes[2] {
        var tMotByte := data[2];
        dat := dat.(tMot := if tMotByte == 0xFF then 0 else tMotByte as nat);
        dat := dat.(controllerTemps := data[3..6]);
      } else if query == cfg.frameCodes[3] {
        var rpmWord := data[0] as nat;
        rpmWord := rpmWord * 256;
        rpmWord := rpmWord + data[1] as nat;
        dat := dat.(rpmWord := rpmWord, iMotRaw := data[2]);
      } else if query == cfg.frameCodes[4] {
        dat := dat.(swThrottle := data[0] != 0);
      } else if query == cfg.frameCodes[5] {
        dat := dat.(swRev := data[0] != 0);
      } else if query == cfg.frameCodes[6] {
        dat := dat.(swThrottle := data[0] != 0);
      }
      if isLeft { lData := dat; } else { rData := dat; }
    }

    /** kbl_tick: counts the call (uint32 wrap-around) and, on every
        KBL_TICK_UPDATE_PERIOD-th call, sends one query. Odd states query
        the left controller, even ones the right; state >> 1 picks the
        query type. From state 14 the state resets to 0 and the query
        byte, never assigned on that path, is whatever `unassigned` holds:
        it is still saved and sent. Bytes 1-7 of the stack frame are never
        written and are `stale`. */
    method Tick(unassigned: byte, stale: seq<byte>) returns (sent: Option<CanFrame>)
      requires Valid() && |stale| == 7
      modifies this
      ensures Valid()
      ensures callCount == AddU32(old(callCount), 1)
      ensures lData == old(lData) && rData == old(rData)
      ensures callCount as int % cfg.tickUpdatePeriod as int != 0 ==>
                sent == None && state == old(state) && lQuery == old(lQuery) && rQuery == old(rQuery)
      ensures callCount as int % cfg.tickUpdatePeriod as int == 0 ==>
                var isLeft := QueriesLeft(old(state));
                var query := cfg.QueryByte(old(state), unassigned);
                && state == NextState(old(state))
                && (if isLeft then lQuery == query && rQuery == old(rQuery)
                    else rQuery == query && lQuery == old(lQuery))
                && sent == Some(CanFrame(if isLeft then cfg.idTxLeft else cfg.idTxRight,
                                         CanHeader(false, false, 1), [query] + stale))
    {
      callCount := AddU32(callCount, 1);
      sent := None;
      if callCount as int % cfg.tickUpdatePeriod as int == 0 {
        var isLeft := state % 2 == 1;
        var queryType := unassigned;
        var step := state / 2;
        if step == 0 {
          queryType := cfg.frameCodes[0];
          state := state + 1;
        } else if step == 1 {
          queryType := cfg.frameCodes[1];
          state := state + 1;
        } else if step == 2 {
          queryType := cfg.frameCodes[2];
          state := state + 1;
        } else if step == 3 {
          queryType := cfg.frameCodes[3];
          state := state + 1;
        } else if step == 4 {
          queryType := cfg.frameCodes[4];
          state := state + 1;
        } else if step == 5 {
          queryType := cfg.frameCodes[5];
          state := state + 1;
        } else if step == 6 {
          queryType := cfg.frameCodes[6];
          state := state + 1;
        } else {
          state := 0;
        }
        if isLeft { lQuery := queryType; } else { rQuery := queryType; }
        var txFrame := CanFrame(if isLeft then cfg.idTxLeft else cfg.idTxRight,
                                CanHeader(false, false, 1), [queryType] + stale);
        sent := Some(txFrame);
      }
    }

    /** The handler kbl_init registers for one receive id. */
    function HandlerFor(id: u32): Cvnp.NonCHandler
      reads this
    {
      Cvnp.NonCHandler(id, 0, cfg.canTimeout, true, cfg.parseFrameGenFn, cfg.onFrameTimeoutFn)
    }

    /** kbl_init: registers one non-compliant handler for each receive id,
        left first, both calling _kbl_parseFrameGen. Each is an ordinary
        registration: it replaces a handler with the same id, else takes
        the first free slot, else fails when the table is full; the other
        handlers in the table are kept. */
    method Init(reg: Cvnp.Registry) returns (left: Cvnp.Registration, right: Cvnp.Registration)
      requires Valid() && reg.Valid()
      modifies reg.nonCTable
      ensures reg.Valid()
      ensures !left.TableFull? ==> left.slot < reg.nonCTable.Length && reg.nonCTable[left.slot] == Some(HandlerFor(cfg.idRxLeft))
      ensures !right.TableFull? ==> right.slot < reg.nonCTable.Length && reg.nonCTable[right.slot] == Some(HandlerFor(cfg.idRxRight))
      ensures var t0 := old(reg.nonCTable[..]);
              var t1 := if left.TableFull? then t0 else t0[left.slot := Some(HandlerFor(cfg.idRxLeft))];
              && (left.Replaced? <==> exists i :: Cvnp.HasKeyAt(t0, Cvnp.NonCKey, cfg.idRxLeft, i))
              && (left.Replaced? ==> Cvnp.HasKeyAt(t0, Cvnp.NonCKey, cfg.idRxLeft, left.slot))
              && (left.Inserted? ==> t0[left.slot].None?)
              && (right.Replaced? <==> exists i :: Cvnp.HasKeyAt(t1, Cvnp.NonCKey, cfg.idRxRight, i))
              && (right.Replaced? ==> Cvnp.HasKeyAt(t1, Cvnp.NonCKey, cfg.idRxRight, right.slot))
              && (right.Inserted? ==> t1[right.slot].None?)
              && (left.TableFull? <==>
                    Cvnp.Occupied(t0) == Cvnp.NonCompliantBufSize
                    && !exists i :: Cvnp.HasKeyAt(t0, Cvnp.NonCKey, cfg.idRxLeft, i))
              && (right.TableFull? <==>
                    Cvnp.Occupied(t1) == Cvnp.NonCompliantBufSize
                    && !exists i :: Cvnp.HasKeyAt(t1, Cvnp.NonCKey, cfg.idRxRight, i))
              && reg.nonCTable[..] == (if right.TableFull? then t1 else t1[right.slot := Some(HandlerFor(cfg.idRxRight))])
    {
      ghost var t0 := reg.nonCTable[..];
      assert Cvnp.NonCKey(HandlerFor(cfg.idRxLeft)) == cfg.idRxLeft;
      assert Cvnp.NonCKey(HandlerFor(cfg.idRxRight)) == cfg.idRxRight;
      left := reg.RegisterNonCHandler(HandlerFor(cfg.idRxLeft));
      ghost var t1 := reg.nonCTable[..];
      assert t1 == if left.TableFull? then t0 else t0[left.slot := Some(HandlerFor(cfg.idRxLeft))];
      right := reg.RegisterNonCHandler(HandlerFor(cfg.idRxRight));
    }
  }
}

=== FILE: types.dfy ===
/** Machine-level types shared by every module: fixed-width unsigned
    integers, function-pointer identities, and the CAN frame of cvnp_hal.h. */
module Types {

  /** An unsigned 8-bit value (uint8_t). */
  newtype byte = x: int | 0 <= x < 0x100

  /** An unsigned 32-bit value (uint32_t). */
  newtype u32 = x: int | 0 <= x < 0x1_0000_0000

  /** The value range of a 31-bit unsigned bit-field. */
  type u31 = x: nat | x < 0x8000_0000

  /** The value range of a 4-bit unsigned bit-field. */
  type u4 = x: nat | x < 16

  /** The identity of a C function pointer; NULL is 0. */
  type FnRef = nat

  const NULL: FnRef := 0

  datatype Option<T> = None | Some(value: T)

  /** Wrapping uint32_t addition. */
  function AddU32(a: u32, b: u32): (r: u32)
    ensures a as int + b as int < 0x1_0000_0000 ==> r as int == a as int + b as int
    ensures a as int + b as int >= 0x1_0000_0000 ==> r as int == a as int + b as int - 0x1_0000_0000
  {
    ((a as int + b as int) % 0x1_0000_0000) as u32
  }

  /** uint32_t subtraction `now - since`: the time elapsed between two
      millisecond stamps, correct across one wrap-around of the clock. */
  function Elapsed(now: u32, since: u32): (r: u32)
    ensures since <= now ==> r == now - since
    ensures now < since ==> r as int == now as int + 0x1_0000_0000 - since as int
  {
    ((now as int - since as int) % 0x1_0000_0000) as u32
  }

  /** The header of a CAN frame (tCanHeader): extended-id flag, remote
      request flag, 4-bit data length code. */
  datatype CanHeader = CanHeader(ide: bool, rtr: bool, dlc: u4)

  /** A CAN frame (tCanFrame) as the protocol layer sees it. */
  datatype CanFrame = CanFrame(id: u32, head: CanHeader, data: seq<byte>)
  {
    /** The C type holds exactly eight data bytes. */
    predicate Valid() { |data| == 8 }
  }

  /** 2^k. */
  function Pow2(k: nat): (r: nat)
    ensures r >= 1
  {
    if k == 0 then 1 else 2 * Pow2(k - 1)
  }

  /** Bit k of an unsigned integer, (w >> k) & 1. */
  predicate Bit(w: nat, k: nat) {
    if k == 0 then w % 2 == 1 else Bit(w / 2, k - 1)
  }

  lemma {:induction false} Pow2Mono(a: nat, b: nat)
    requires a <= b
    ensures Pow2(a) <= Pow2(b)
  {
    if a < b { Pow2Mono(a, b - 1); }
  }

  lemma {:induction false} Pow2Add(a: nat, b: nat)
    ensures Pow2(a + b) == Pow2(a) * Pow2(b)
  {
    if b > 0 { Pow2Add(a, b - 1); }
  }

  /** For 0 <= a < m: the digit a and the carry b are recovered from a + m*b. */
  lemma Split(a: int, b: int, m: int)
    requires 0 <= a < m && 0 <= b
    ensures (a + m * b) % m == a && (a + m * b) / m == b
  {
    var x := a + m * b;
    var q, r := x / m, x % m;
    assert x == m * q + r;
    assert m * (b - q) == r - a;
    if b - q > 0 { MulAtLeast(m, b - q); }
    else if b - q < 0 { MulAtLeast(m, q - b); }
  }

  lemma MulAtLeast(m: int, k: int)
    requires 0 < m && 1 <= k
    ensures m * k >= m
  {
    assert m * k == m + m * (k - 1);
    if k > 1 { MulAtLeast(m, k - 1); }
  }
}

=== FILE: util.dfy ===
/** The byte-array / integer copy macros of util.h.

    Each macro works on an unsigned integer DAT of n = sizeof(DAT) bytes
    and a byte array ARR. DAT is modelled as a natural number below
    256^n; its byte k is (DAT / 256^k) % 256. */
module Util {
  import opened Types

  /** The sizes of the C unsigned integer types. */
  predicate IsIntWidth(n: nat) { n == 1 || n == 2 || n == 4 || n == 8 }

  /** 256^k. */
  function Pow256(k: nat): (r: nat)
    ensures r >= 1
  {
    if k == 0 then 1 else 256 * Pow256(k - 1)
  }

  /** Byte k of an integer. */
  function ByteOf(dat: nat, k: nat): byte {
    ((dat / Pow256(k)) % 256) as byte
  }

  /** The value of a byte string read least significant byte first. */
  function LittleEndian(s: seq<byte>): (r: nat)
    ensures r < Pow256(|s|)
  {
    if s == [] then 0 else s[0] as nat + 256 * LittleEndian(s[1..])
  }

  /** UTIL_BYTEARR_TO_INT: DAT is zeroed, then for i from n-1 down to 0
      shifted left by 8 within its n bytes and OR-ed with ARR[i]. The
      result is ARR[0..n) read little-endian, so it fits in n bytes and
      does not depend on DAT's earlier value or on ARR beyond n. */
  method ByteArrToInt(arr: array<byte>, n: nat) returns (dat: nat)
    requires IsIntWidth(n) && n <= arr.Length
    ensures dat == LittleEndian(arr[..n])
    ensures dat < Pow256(n)
  {
    dat := 0;
    var i := n;
    while i > 0
      invariant 0 <= i <= n
      invariant dat == LittleEndian(arr[i..n])
    {
      i := i - 1;
      Pow256Mono(n - i, n);
      ShiftFits(dat, n - i - 1, n);
      // After the in-width shift the low byte is clear, so OR adds ARR[i].
      dat := (dat * 256) % Pow256(n) + arr[i] as nat;
      assert arr[i..n][1..] == arr[i + 1..n];
    }
  }

  /** A value below 256^k shifted left by one byte still fits in n bytes
      when k < n, so the in-width shift loses nothing. */
  lemma ShiftFits(dat: nat, k: nat, n: nat)
    requires dat < Pow256(k) && k < n && Pow256(k + 1) <= Pow256(n)
    ensures (dat * 256) % Pow256(n) == dat * 256
  {
  }

  lemma {:induction false} Pow256Mono(a: nat, b: nat)
    requires a <= b
    ensures Pow256(a) <= Pow256(b)
  {
    if a < b { Pow256Mono(a, b - 1); }
  }

  /** The byte UTIL_INT_TO_BYTEARR stores at ARR[i]: DAT shifted right by
      8*(n-i) bits, masked to a byte. At i = 0 the shift is the full
      width of DAT: for n <= 2 DAT is promoted to a 32-bit int and the
      result is 0, for n >= 4 the shift is undefined in C and the model
      takes the byte produced as the parameter `undefined`. */
  function ShiftedByte(dat: nat, n: nat, i: nat, undefined: byte): byte
    requires i <= n
  {
    if i == 0 && n >= 4 then undefined else ByteOf(dat, n - i)
  }

  /** UTIL_INT_TO_BYTEARR: writes ARR[0..n) with ShiftedByte and leaves
      the rest of ARR (and DAT) alone. */
  method IntToByteArr(arr: array<byte>, dat: nat, n: nat, undefined: byte)
    requires IsIntWidth(n) && n <= arr.Length && dat < Pow256(n)
    modifies arr
    ensures forall i :: 0 <= i < n ==> arr[i] == ShiftedByte(dat, n, i, undefined)
    ensures forall i :: n <= i < arr.Length ==> arr[i] == old(arr[i])
  {
    for i := 0 to n
      invariant forall j :: 0 <= j < i ==> arr[j] == ShiftedByte(dat, n, j, undefined)
      invariant forall j :: i <= j < arr.Length ==> arr[j] == old(arr[j])
    {
      arr[i] := if i == 0 && n >= 4 then undefined else ((dat / Pow256(n - i)) % 256) as byte;
    }
  }

  /** What UTIL_INT_TO_BYTEARR stores at ARR[i], i >= 1, is the byte at
      position n-i of DAT's little-endian bytes: ARR[1..n) holds bytes
      n-1 down to 1, so byte 0 of DAT never reaches ARR; for n <= 2,
      ARR[0] is 0. */
  lemma ShiftedBytes(dat: nat, n: nat, undefined: byte)
    requires IsIntWidth(n) && dat < Pow256(n)
    ensures forall i :: 1 <= i < n ==> ShiftedByte(dat, n, i, undefined) == ToLittleEndian(dat, n)[n - i]
    ensures n <= 2 ==> ShiftedByte(dat, n, 0, undefined) == 0
  {
    forall i | 1 <= i < n ensures ShiftedByte(dat, n, i, undefined) == ToLittleEndian(dat, n)[n - i] {
      ToLittleEndianByte(dat, n, n - i);
    }
    if n <= 2 {
      assert dat / Pow256(n) == 0;
    }
  }

  /** Position k of the little-endian bytes is byte k of DAT. */
  lemma {:induction false} ToLittleEndianByte(dat: nat, n: nat, k: nat)
    requires k < n
    ensures ToLittleEndian(dat, n)[k] == ByteOf(dat, k)
  {
    if k > 0 {
      ToLittleEndianByte(dat / 256, n - 1, k - 1);
      DivDiv(dat, 256, Pow256(k - 1));
    }
  }

  /** Dividing by b and then by c is dividing by b * c. */
  lemma DivDiv(a: nat, b: nat, c: nat)
    requires b > 0 && c > 0
    ensures a / b / c == a / (b * c)
  {
    var q, r := a / b, a % b;
    var q2, r2 := q / c, q % c;
    assert a == b * q + r;
    assert q == c * q2 + r2;
    assert b * q == b * c * q2 + b * r2 by {
      assert b * (c * q2 + r2) == b * (c * q2) + b * r2;
      assert b * (c * q2) == b * c * q2;
    }
    assert b * r2 + r < b * c by {
      assert b * c == b * r2 + b * (c - r2);
      MulAtLeast(b, c - r2);
    }
    Split(b * r2 + r, q2, b * c);
  }

  /** The two macros are not inverses: for a 16-bit DAT = 0x1234 the
      array written is [0x00, 0x12], which reads back as 0x1200. */
  lemma NotInverse()
    ensures ShiftedByte(0x1234, 2, 0, 0) == 0x00 && ShiftedByte(0x1234, 2, 1, 0) == 0x12
    ensures LittleEndian([0x00, 0x12]) == 0x1200 != 0x1234
  {
    assert Pow256(2) == 0x1_0000 && Pow256(1) == 0x100;
    assert LittleEndian([0x12]) == 0x12 by {
      assert [0x12 as byte][1..] == [];
    }
    assert [0x00 as byte, 0x12][1..] == [0x12];
  }

  /** The bytes of the low n bytes of DAT, least significant first: what
      the copy-out macro evidently means to produce, i.e. the inverse of
      UTIL_BYTEARR_TO_INT. */
  function ToLittleEndian(dat: nat, n: nat): (s: seq<byte>)
    ensures |s| == n
  {
    if n == 0 then [] else [(dat % 256) as byte] + ToLittleEndian(dat / 256, n - 1)
  }

  /** Reading back the little-endian bytes of DAT gives DAT. */
  lemma {:induction false} LittleEndianRoundTrip(dat: nat, n: nat)
    requires dat < Pow256(n)
    ensures LittleEndian(ToLittleEndian(dat, n)) == dat
  {
    if n > 0 {
      LittleEndianRoundTrip(dat / 256, n - 1);
      assert ToLittleEndian(dat, n)[1..] == ToLittleEndian(dat / 256, n - 1);
    }
  }

  /** And bytes read in are written back out unchanged. */
  lemma {:induction false} ToLittleEndianRoundTrip(s: seq<byte>)
    ensures ToLittleEndian(LittleEndian(s), |s|) == s
  {
    if s != [] {
      ToLittleEndianRoundTrip(s[1..]);
      assert (s[0] as nat + 256 * LittleEndian(s[1..])) / 256 == LittleEndian(s[1..]);
    }
  }

  /** The copy-out with the shift the round trip needs: ARR[i] is byte i
      of DAT, i.e. (DAT >> 8*i) & 0xFF, produced here by shifting DAT
      down one byte per step. */
  method IntToByteArrLittleEndian(arr: array<byte>, dat: nat, n: nat)
    requires IsIntWidth(n) && n <= arr.Length && dat < Pow256(n)
    modifies arr
    ensures arr[..n] == ToLittleEndian(dat, n)
    ensures forall i :: n <= i < arr.Length ==> arr[i] == old(arr[i])
  {
    var rest := dat;
    for i := 0 to n
      invariant arr[..i] + ToLittleEndian(rest, n - i) == ToLittleEndian(dat, n)
      invariant forall j :: i <= j < arr.Length ==> arr[j] == old(arr[j])
    {
      assert ToLittleEndian(rest, n - i) == [(rest % 256) as byte] + ToLittleEndian(rest / 256, n - i - 1);
      arr[i] := (rest % 256) as byte;
      rest := rest / 256;
      assert arr[..i + 1] == arr[..i] + [arr[i]];
    }
  }
}
